=== FILE: README.md ===
# Logger string transforms in Dafny

This project models the string-transformation layer of the `Logger`
interface of the surupi/logger Java library. Almost every default or static
method of `Logger` computes a new string from its message and then hands it
to `log` or `System.out.println`. The model drops that last step. Each
transform becomes a pure Dafny function over `string` (`seq<char>`), and the
properties the code promises are proved about those functions.

Modules, one per file:

- `Text` (`text.dfy`): ASCII character classes and the Java primitives the transforms share.
  - Classes: `\s`, `\w`, the characters `trim()` strips, and letters and digits.
  - Case mapping and `StringBuilder.reverse()`.
  - `String.trim()`.
  - `split("\\s+")`, with Java's edge cases:
    - `""` splits to `[""]`;
    - a leading empty token appears for leading whitespace;
    - trailing empty tokens are dropped, so all-whitespace input gives no tokens.
  - The "append word and space, then trim" idiom (`Emit`).
  - `String.contains`.
- `Ciphers` (`ciphers.dfy`): the Caesar logger as written, with Java's 32-bit `int` sum and truncating `%`; a corrected shift; ROT13; leet substitution.
- `Morse` (`morse.dfy`): the 40-entry table and the encoder. A decoder partner shows that the encoder loses only the characters it reports as untranslatable.
- `Linguistic` (`linguistic.dfy`): pig latin, with its whitespace-keeping tokenizer, `convertToPigLatin` and `isVowel`. Also vowel removal, conditional word reversal and synonym substitution.
- `Palindromes` (`palindromes.dfy`):
  - `isPalindrome` and the palindrome-word filter.
  - Highlighting of palindromic `\w+` runs, both as a functional specification (segments and spans) and as the offset-splicing loop the source runs (`HighlightPalindromes`).
- `Classify` (`classify.dfy`): sentiment colouring by keyword containment, and the phrase-table translation with its language allow-list.
- `Shuffles` (`shuffles.dfy`):
  - Word frequency, as counts.
  - Length-grouped shuffling and interior-letter scrambling. Each shuffle outcome is a parameter, constrained to be a permutation.
- `Decorate` (`decorate.dfy`): the prefix, details, category, emoji, colour and style wrappers, and upper-casing.

Parameters stand in for the values of classes outside the model:
- the ANSI codes of `ColorCodes` (`GREEN`, `RED`, `RESET`);
- the symbol of an `Emoji` constant;
- the highlight colour.

All character classification is ASCII: a non-ASCII character is never a letter, digit or whitespace in the model.

## Model

| member | source | states |
|---|---|---|
| Text.ToLower | src/main/java/org/example/Logger.java:338 | `toLowerCase` on ASCII: same length; each upper-case letter becomes its lower-case letter (code point + 32) and every other character is unchanged |
| Text.ToUpper | src/main/java/org/example/Logger.java:27-29 | `toUpperCase` on ASCII: same length; each lower-case letter becomes its upper-case letter (code point - 32) and every other character is unchanged |
| Text.Reverse | src/main/java/org/example/Logger.java:42-45 | `StringBuilder.reverse()`: same length; character `i` of the result is character `n-1-i` of the input |
| Text.ReverseInvolution | src/main/java/org/example/Logger.java:42-45 | reversing twice gives the message back |
| Text.Trim | src/main/java/org/example/Logger.java:409 | `trim()`: the result neither starts nor ends with a character <= U+0020; it holds only characters of the input; a string that needs no trimming is returned unchanged |
| Text.Split | src/main/java/org/example/Logger.java:376 | `split("\\s+")`: no token contains whitespace, and only the first token can be empty |
| Text.SplitLeading | src/main/java/org/example/Logger.java:376 | the first token is empty exactly when the input is empty, or starts with whitespace and is not all whitespace |
| Text.SplitWords | src/main/java/org/example/Logger.java:376 | for input with a non-space character, the split is its maximal non-whitespace runs, possibly preceded by one empty token |
| Text.SplitEmpty | src/main/java/org/example/Logger.java:376 | the split is empty exactly when the input is non-empty and all whitespace |
| Text.SplitLossless | src/main/java/org/example/Logger.java:376 | the tokens concatenated are the input with its whitespace deleted |
| Text.SplitJoin | src/main/java/org/example/Logger.java:376 | splitting the single-space join of non-empty whitespace-free words gives the words back |
| Text.WordsOfLay | src/main/java/org/example/Logger.java:376 | laying whitespace-free words out with arbitrary whitespace before, between (at least one character) and after them, the maximal non-whitespace runs are exactly those words |
| Text.LayOfWords | src/main/java/org/example/Logger.java:376 | every string is such a layout of its own maximal non-whitespace runs |
| Text.SplitLay | src/main/java/org/example/Logger.java:376 | splitting any such layout of at least one word gives the words back, preceded by an empty token exactly when the layout starts with whitespace |
| Text.TrimFrame | src/main/java/org/example/Logger.java:409 | `trim()` of a core with non-blank ends (or an empty core) between two runs of characters <= U+0020 returns exactly the core |
| Text.TrimSplit | src/main/java/org/example/Logger.java:409 | every string is its `trim()` with a run of characters <= U+0020 on either side, so the trim is a contiguous slice |
| Text.TrimJoinSpaced | src/main/java/org/example/Logger.java:416-424 | appending each word and a space and then trimming gives the single-space join, when neither end of the word list is blank |
| Text.EmitSolid | src/main/java/org/example/Logger.java:416-424 | for words with no blank characters, the emitted line is their single-space join and splits back into the same words |
| Text.EmitWords | src/main/java/org/example/Logger.java:416-424 | an empty token in front of blank-free words changes nothing: the emitted line is still their single-space join and splits back into them |
| Text.ContainsIff | src/main/java/org/example/Logger.java:81-82 | `s.contains(w)` holds exactly when `w` occurs in `s` at some offset |
| Ciphers.Wrap32 | src/main/java/org/example/Logger.java:147 | Java `int` addition: the identity inside the 32-bit range, and always congruent to the exact sum modulo 2^32 |
| Ciphers.JavaRem26 | src/main/java/org/example/Logger.java:147 | Java's truncating `% 26`: in [0, 26) for a non-negative operand, in (-26, 0] for a negative one, and congruent to the operand modulo 26 |
| Ciphers.Caesar | src/main/java/org/example/Logger.java:141-154 | the Caesar logger's text keeps the message's length and leaves every non-letter in place |
| Ciphers.ShiftChar | src/main/java/org/example/Logger.java:145-150 | the intended shift of one character: a letter stays a letter of the same case and moves by `n` modulo 26; anything else is unchanged |
| Ciphers.ShiftRoundTrip | src/main/java/org/example/Logger.java:141-154 | shifting by `n` and then by `-n` restores any message, for every integer `n` |
| Ciphers.CaesarIsShift | src/main/java/org/example/Logger.java:141-154 | for shifts from 0 to Integer.MAX_VALUE-25 the code as written equals the intended shift |
| Ciphers.CaesarRoundTrip | src/main/java/org/example/Logger.java:141-154 | for 0 <= n <= 26, the logger with shift `26-n` undoes the logger with shift `n` |
| Ciphers.CaesarKeepsCase | src/main/java/org/example/Logger.java:145-147 | for non-negative shifts without overflow, every character keeps its case class |
| Ciphers.CaesarNegativeShiftLeavesAlphabet | src/main/java/org/example/Logger.java:147 | as written, shift -1 turns 'a' into '`', and shifting 'z' by 1 and then by -1 gives '`' rather than 'z'; the corrected shift returns 'z' |
| Ciphers.CaesarOverflowLeavesAlphabet | src/main/java/org/example/Logger.java:147 | as written, shift Integer.MAX_VALUE turns 'y' into '`' because the sum wraps; the corrected shift gives 'v' |
| Ciphers.Rot13 | src/main/java/org/example/Logger.java:363-373 | ROT13 keeps the length, each character's case class and letterhood, and every non-letter; it changes every letter |
| Ciphers.Rot13Involution | src/main/java/org/example/Logger.java:363-373 | ROT13 applied twice gives the message back |
| Ciphers.CaesarThirteenIsRot13 | src/main/java/org/example/Logger.java:141-154 | the Caesar logger with shift 13 produces the ROT13 text |
| Ciphers.ReplaceChar | src/main/java/org/example/Logger.java:37-38 | `replace` of one character by another: same length, and each occurrence of the old character becomes the new one, all else unchanged |
| Ciphers.Leet | src/main/java/org/example/Logger.java:35-40 | leet text has the same length, no 'o' and no 's'; each 'o' became '0' and each 's' became '5' |
| Ciphers.LeetIdempotent | src/main/java/org/example/Logger.java:35-40 | a second leet pass changes nothing |
| Morse.CodeDomain | src/main/java/org/example/Logger.java:274-317 | the map `createMorseCodeMap` builds (`Code`): exactly a-z, 0-9 and `. , ? !` have a code, and every code is one to six dots and dashes |
| Morse.DecodeCode | src/main/java/org/example/Logger.java:274-317 | decoding a character's table code gives the character back |
| Morse.TableEntries | src/main/java/org/example/Logger.java:274-317 | every table character has a decodable dot-dash code; every other character has none |
| Morse.CodesDistinct | src/main/java/org/example/Logger.java:274-317 | the 40 table codes are pairwise distinct |
| Morse.Piece | src/main/java/org/example/Logger.java:262-270 | a space contributes "/ ", a table character its code and a space, and any other character nothing |
| Morse.BodyAppend | src/main/java/org/example/Logger.java:262-270 | the encoder's buffer is the concatenation of per-character pieces |
| Morse.Encode | src/main/java/org/example/Logger.java:256-272 | the encoder's output holds only '.', '-', '/' and ' ' |
| Morse.Untranslated | src/main/java/org/example/Logger.java:267-268 | the characters reported as untranslatable are the non-space characters of the lower-cased message without a code: each such character appears exactly as often as in the message, and no other character appears |
| Morse.RejectAppend | src/main/java/org/example/Logger.java:262-270 | the report distributes over concatenation, so the characters are reported in message order |
| Morse.Keep | src/main/java/org/example/Logger.java:263-266 | the characters the encoder translates are the spaces and table characters of the message, each exactly as often as it occurs |
| Morse.KeepAppend | src/main/java/org/example/Logger.java:262-270 | the translated characters distribute over concatenation, so they keep message order |
| Morse.KeepRejectPartition | src/main/java/org/example/Logger.java:262-268 | every character of the message is either translated or reported, never both and never neither |
| Morse.BodyKeep | src/main/java/org/example/Logger.java:262-270 | dropping the untranslatable characters first does not change the buffer |
| Morse.EncodeDecode | src/main/java/org/example/Logger.java:256-272 | decoding the encoder's output gives the lower-cased message minus its untranslatable characters: nothing else is lost or reordered |
| Linguistic.PiecesWellFormed | src/main/java/org/example/Logger.java:323 | the tokenizer splits a message into single whitespace characters and maximal non-whitespace runs that concatenate back to the message |
| Linguistic.PiecesOfConcat | src/main/java/org/example/Logger.java:323 | the tokenizer reads any such token sequence back from its concatenation |
| Linguistic.ConvertToPigLatin | src/main/java/org/example/Logger.java:336-357 | a vowel-initial word gains "way" (3 more characters); otherwise the result is 2 longer and ends in "ay", and when the word's first letter is upper-case the result's first character is not lower-case and no later character is upper-case |
| Linguistic.PigLatinRotation | src/main/java/org/example/Logger.java:344-355 | a consonant-initial word becomes rest + consonant cluster + "ay", where the cluster ends at the first vowel; this holds exactly for a lower-case first letter and up to case for an upper-case one |
| Linguistic.PigLatinNoVowel | src/main/java/org/example/Logger.java:344-350 | a word with no vowel becomes word + "ay" (up to case when it is capitalised) |
| Linguistic.PigLatinAlpha | src/main/java/org/example/Logger.java:336-357 | the conversion of an `[a-zA-Z]+` word is again an `[a-zA-Z]+` word |
| Linguistic.LowerKeepsVowels | src/main/java/org/example/Logger.java:359-361 | lower-casing a character does not change whether it is one of "aeiouAEIOU" |
| Linguistic.PigLatinLayout | src/main/java/org/example/Logger.java:319-334 | tokenizing the converted text gives one token per original token; whitespace and non-word tokens pass through unchanged and each `[a-zA-Z]+` token is replaced by its conversion |
| Linguistic.PigLatin | src/main/java/org/example/Logger.java:319-334 | the logged text neither starts nor ends with a character `trim()` strips; when the message does not either, the trim removes nothing and the text is the converted tokens concatenated; when every character <= U+0020 in the message is `\s` whitespace, the text is the conversion of the trimmed message |
| Linguistic.TrimmedBody | src/main/java/org/example/Logger.java:322-333 | when every character <= U+0020 in the message is `\s` whitespace, trimming after the conversion equals converting the trimmed message: the border whitespace passes through as one-character tokens and the trim removes exactly those |
| Linguistic.IsVowel | src/main/java/org/example/Logger.java:359-361 | a character is a vowel exactly when it is one of "aeiouAEIOU" |
| Linguistic.RemoveVowels | src/main/java/org/example/Logger.java:55-58 | the result has no vowel, keeps every non-vowel with its multiplicity, and is no longer than the message |
| Linguistic.RemoveVowelsAppend | src/main/java/org/example/Logger.java:55-58 | vowel removal distributes over concatenation |
| Linguistic.RemoveVowelsIdentity | src/main/java/org/example/Logger.java:55-58 | a message with no vowel is unchanged |
| Linguistic.RemoveVowelsIdempotent | src/main/java/org/example/Logger.java:55-58 | a second removal changes nothing |
| Linguistic.ReverseLongWordsSpec | src/main/java/org/example/Logger.java:412-425 | a word is reversed exactly when it is longer than the threshold; every word keeps its length; applying the step twice gives the words back |
| Linguistic.ConditionalReverse | src/main/java/org/example/Logger.java:412-425 | for a message with words, none holding a character `trim()` strips, the logged line is the single-space join of its words with exactly the words longer than the threshold reversed; leading whitespace makes no difference |
| Linguistic.ConditionalReverseTwice | src/main/java/org/example/Logger.java:412-425 | for such a message, logging the logged line again with the same threshold gives the single-space join of the original words |
| Linguistic.SynonymWordsSpec | src/main/java/org/example/Logger.java:455-467 | a word changes exactly when it is "happy" or "sad"; neither survives; a second pass changes nothing |
| Linguistic.Synonyms | src/main/java/org/example/Logger.java:455-467 | for a message with words, none holding a character `trim()` strips, the printed line is the single-space join of the substituted words and splits back into them; leading whitespace makes no difference |
| Palindromes.IsPalindrome | src/main/java/org/example/Logger.java:252-254 | a word is a palindrome exactly when it has more than one character and each character equals its mirror |
| Palindromes.KeepPalindromes | src/main/java/org/example/Logger.java:377-379 | the filter keeps only palindromes, each palindrome with its full multiplicity |
| Palindromes.KeepPalindromesAppend | src/main/java/org/example/Logger.java:377-379 | the filter distributes over concatenation, so the palindromes keep message order |
| Palindromes.PalindromeWordsSpec | src/main/java/org/example/Logger.java:375-381 | the filtered list holds exactly the palindromic tokens of the message |
| Palindromes.PalindromeWords | src/main/java/org/example/Logger.java:375-381 | the logged line is empty when no token is a palindrome; otherwise splitting it gives back the palindromic tokens in message order, each with its multiplicity |
| Palindromes.Letters | src/main/java/org/example/Logger.java:224 | `replaceAll("[^a-zA-Z]", "")` keeps only letters, and each letter exactly as often as it occurs in the word |
| Palindromes.LettersAppend | src/main/java/org/example/Logger.java:224 | deleting non-letters distributes over concatenation, so the kept letters stay in their order |
| Palindromes.Clean | src/main/java/org/example/Logger.java:224 | the cleaned word has one lower-case letter per letter of the word, and a word of lower-case letters is its own cleaned form |
| Palindromes.CleanAppend | src/main/java/org/example/Logger.java:224 | cleaning distributes over concatenation |
| Palindromes.SegmentsSpec | src/main/java/org/example/Logger.java:216-222 | the message splits into alternating maximal `\w` runs and non-`\w` runs that concatenate back to it, so each `\w` run is one `\b\w+\b` match |
| Palindromes.HighlightErases | src/main/java/org/example/Logger.java:214-239 | removing every inserted colour/reset pair gives exactly the message |
| Palindromes.HighlightWraps | src/main/java/org/example/Logger.java:222-231 | a run is wrapped exactly when it is a `\w+` match whose letters, lower-cased, form a palindrome |
| Palindromes.HighlightNothing | src/main/java/org/example/Logger.java:214-239 | with no palindromic match the highlighted message is the message |
| Palindromes.WordEnd | src/main/java/org/example/Logger.java:222-223 | the matcher's greedy `\w+` scan stops at the end of the message or at the first non-`\w` character |
| Palindromes.HighlightPalindromes | src/main/java/org/example/Logger.java:214-239 | the offset-splicing loop (copy from `lastIndex` to the match, add colour, word and reset, append the rest) produces the span rendering of the message |
| Classify.MoodOf | src/main/java/org/example/Logger.java:66-84 | positive exactly when a positive keyword occurs in the lower-cased message; negative exactly when no positive keyword occurs and a negative one does |
| Classify.MentionsIff | src/main/java/org/example/Logger.java:81-82 | a keyword list matches exactly when one of its words occurs at some offset of the lower-cased message |
| Classify.Sentiment | src/main/java/org/example/Logger.java:84-90 | a positive message is wrapped in green, a negative one in red, and a neutral one is logged unchanged |
| Classify.SentimentPositiveFirst | src/main/java/org/example/Logger.java:84-87 | "Bad start, GOOD end" is green: positive wins, and case does not matter |
| Classify.SentimentInsideWord | src/main/java/org/example/Logger.java:81 | keywords match inside longer words: "Fantastically" is green |
| Classify.SentimentNegative | src/main/java/org/example/Logger.java:86-87 | "Terrible news" is red |
| Classify.SentimentNeutral | src/main/java/org/example/Logger.java:88-89 | "ok" is logged unchanged |
| Classify.Table | src/main/java/org/example/Logger.java:106-113 | the keys of the map after a sequence of `put`s are exactly the keys put |
| Classify.TableLastWins | src/main/java/org/example/Logger.java:106-113 | each key maps to the value of its last `put` |
| Classify.Translate | src/main/java/org/example/Logger.java:105-124 | an unsupported code yields the message plus " (Translation unavailable)"; for "es" or "fr" a phrase in the table yields the value of its last `put`, and any other phrase is returned unchanged |
| Classify.TranslateIgnoresLanguage | src/main/java/org/example/Logger.java:105-124 | "es" and "fr" translate every message alike |
| Classify.TranslateOverridden | src/main/java/org/example/Logger.java:107-113 | "Hello" translates to "Bonjour" and "Thank you" to "Merci", because the later `put`s win |
| Classify.TranslatePutOnce | src/main/java/org/example/Logger.java:108-109 | "Goodbye" translates to "Adios" under "fr", and "Yes" to "Sí" under "es" |
| Classify.TranslateUnknown | src/main/java/org/example/Logger.java:116 | the phrase "Unknown", which no `put` adds, is returned unchanged under "fr" (the general fallback is stated by `Classify.Translate`) |
| Classify.TranslateUnsupported | src/main/java/org/example/Logger.java:119-121 | "Hello" under "en" gets the unavailable note even though it is in the table |
| Shuffles.Tally | src/main/java/org/example/Logger.java:385-386 | the frequency map's keys are exactly the lower-cased words, and each count is that word's multiplicity among them |
| Shuffles.WordFrequency | src/main/java/org/example/Logger.java:383-386 | the map's keys are exactly the lower-cased tokens of the message, and every key is already lower case |
| Shuffles.TallyIgnoresCase | src/main/java/org/example/Logger.java:386 | lower-casing the words first does not change the map |
| Shuffles.WordFrequencyExample | src/main/java/org/example/Logger.java:383-391 | "hello world Hello" counts hello twice and world once |
| Shuffles.WordFrequencyEmpty | src/main/java/org/example/Logger.java:384-386 | the empty message counts the empty word once |
| Shuffles.DecimalValue | src/main/java/org/example/Logger.java:388 | a count's decimal digits read back as the count |
| Shuffles.FrequencyLine | src/main/java/org/example/Logger.java:387-389 | the joined line is empty exactly when the map is |
| Shuffles.EnumeratesSize | src/main/java/org/example/Logger.java:387-389 | an iteration order lists as many entries as the map has keys |
| Shuffles.Band | src/main/java/org/example/Logger.java:398-401 | the words with lengths in a range: exactly those words of the message, each with its full multiplicity |
| Shuffles.BandAppend | src/main/java/org/example/Logger.java:398-401 | the band filter distributes over concatenation, so each group keeps message order |
| Shuffles.GroupsSpec | src/main/java/org/example/Logger.java:394-401 | the TreeMap's groups are non-empty, each holds words of one length, lengths strictly increase, and together they hold every word of the message exactly as often as it occurs |
| Shuffles.ShuffleKeepsLayers | src/main/java/org/example/Logger.java:404-405 | shuffling within each group keeps the groups' lengths and order |
| Shuffles.FlattenLayered | src/main/java/org/example/Logger.java:404-407 | writing the groups out one after another gives words of non-decreasing length |
| Shuffles.LengthScrambledSpec | src/main/java/org/example/Logger.java:393-407 | the shuffled tokens are a permutation of the message's tokens, ordered by non-decreasing length |
| Shuffles.LengthScrambled | src/main/java/org/example/Logger.java:393-410 | the line is the shuffled tokens' spaced join trimmed; for a message with words, none holding a character `trim()` strips, splitting the line gives a permutation of those words in non-decreasing length order, and the shuffled tokens are that list, preceded by the empty leading token when there was one |
| Shuffles.ScrambleWord | src/main/java/org/example/Logger.java:442-453 | `scrambleWord` keeps the length and the first and last characters; the interior is the shuffled interior; the letters are a permutation of the word |
| Shuffles.ScrambleWordIdentity | src/main/java/org/example/Logger.java:442-453 | the identity shuffle gives the word back |
| Shuffles.ScrambleThreeLetters | src/main/java/org/example/Logger.java:442-453 | a three-letter word is never changed |
| Shuffles.CharacterScrambled | src/main/java/org/example/Logger.java:427-440 | for a message with words, none holding a character `trim()` strips, splitting the printed line gives one word per word of the message, in place; each keeps its length, first and last letter and letter multiset, and a word of up to three letters is unchanged |
| Decorate.Prefix | src/main/java/org/example/Logger.java:23-25 | the line starts with the prefix and ": " and is exactly 2 longer than prefix and message together |
| Decorate.PrefixUnframe | src/main/java/org/example/Logger.java:23-25 | dropping the prefix and ": " gives the message back |
| Decorate.Details | src/main/java/org/example/Logger.java:186-188 | the line is "Detailed Log: " followed by the message |
| Decorate.DetailsUnframe | src/main/java/org/example/Logger.java:186-188 | dropping the 14-character label gives the message back |
| Decorate.Category | src/main/java/org/example/Logger.java:210-212 | the line is '[', the category upper-cased character by character, "] ", then the message |
| Decorate.CategoryUnframe | src/main/java/org/example/Logger.java:210-212 | dropping the bracketed category and its space gives the message back |
| Decorate.CategoryCaseBlind | src/main/java/org/example/Logger.java:211 | the category's case does not affect the line |
| Decorate.Emoji | src/main/java/org/example/Logger.java:190-192 | the line starts with the emoji symbol and a space |
| Decorate.EmojiUnframe | src/main/java/org/example/Logger.java:190-192 | dropping the symbol and the space gives the message back |
| Decorate.Color | src/main/java/org/example/Logger.java:47-49 | the line starts with the colour code and ends with the reset code |
| Decorate.ColorUnframe | src/main/java/org/example/Logger.java:47-49 | dropping the colour and reset codes gives the message back |
| Decorate.Style | src/main/java/org/example/Logger.java:51-53 | the styled line is the coloured line whose code is foreground, background and effect together |
| Decorate.StyleUnframe | src/main/java/org/example/Logger.java:51-53 | dropping the three codes and the reset gives the message back |
| Decorate.UppercaseIdempotent | src/main/java/org/example/Logger.java:27-29 | upper-casing twice is the same as once |
| Decorate.UppercaseKeepsLetters | src/main/java/org/example/Logger.java:27-29 | upper-casing loses only case: lower-casing afterwards equals lower-casing the message |

## Left out

- Sinks and I/O are not modelled: `log` itself, the console, red, leet, Caesar and styled loggers' `println` (126-160), the file logger (199-208) and the environment-aware logger (173-184). Each transform is modelled up to the string it would print.
- The untranslatable-character messages that `logInMorseCode` prints are not modelled as output. `Morse.Untranslated` and `Morse.RejectAppend` give which characters they name, in order.
- Timestamp and execution-time logging (93-103) are not modelled, because they read the wall clock.
- JSON logging (162-171) and HTML logging (194-197) are not modelled, because they call Jackson and j2html, which are outside the model.
- Base64 encoding and decoding (241-250) are not modelled. They are single calls into `java.util.Base64` on platform-charset bytes.
- `logWithTransformation` (31-33) is not modelled: it applies a caller-supplied function and adds no logic of its own.
- The commented-out Markov-chain method (469-493) is not modelled.
- Case mapping is modelled as under a root locale. `toLowerCase()` and `toUpperCase()` without an argument use the default locale; under a Turkish one 'I' lowers to 'ı' and 'i' uppers to 'İ', so "TERRIBLE news" would not be red and the Morse logger would report 'ı' as untranslatable. The model assumes a locale such as `Locale.ROOT`.
- Before Java 19, `\b` decides word boundaries with Unicode letters and digits while `\w` is ASCII, so a `\w` run next to a non-ASCII letter is not matched by `\b\w+\b`. The model's boundaries are ASCII throughout, which agrees for ASCII messages.
- Unicode is not modelled. Case mapping, `Character.isLetter`/`isLowerCase`, `\s` and `\w` are modelled for ASCII. Every non-ASCII character counts as a non-letter, non-digit and non-whitespace character, and case mapping leaves it unchanged. Java would, for example, treat 'é' as a letter in the Caesar and ROT13 loggers.
- `Collections.shuffle` is not modelled as a random generator. Each shuffle outcome is a parameter, constrained only to be a permutation of what was shuffled.
- `ColorCodes` and the `Emoji` enum are not part of this model. Their values are string parameters.
- The iteration order of the word-frequency `HashMap` is unspecified, so it is a parameter (`order`) and only the counts are pinned down.
- Shuffles.FrequencyLine: states only that the line is empty exactly when the map is, because the entry order is a parameter; the counts are stated by `Shuffles.Tally`.
- Text.Trim: its own contract does not state that the result is a contiguous slice of the input; it states the blank-free ends, the characters kept, and that an untrimmable string is unchanged. `Text.TrimSplit` and `Text.TrimFrame` state the slice.
- Linguistic.PigLatin: the text is stated to be the conversion of the trimmed message only when every character <= U+0020 in the message is `\s` whitespace. A control character such as U+0001 at a border is not a token separator, so it stays glued to the neighbouring token and that token is not converted, yet `trim()` strips it; for such messages only the blank-free ends are stated.
- Linguistic.ConditionalReverse: the line is stated only for messages with at least one word and no word holding a control character below U+0020; `trim()` would strip such a character from the ends of the line.
- Linguistic.Synonyms: the line is stated only for messages with at least one word and no word holding a control character below U+0020, for the same reason.
- Shuffles.LengthScrambled: the split of the line is stated only for messages with at least one word and no word holding a control character below U+0020, for the same reason; the line itself is stated for every message.
- Shuffles.CharacterScrambled: the split of the line is stated only for messages with at least one word and no word holding a control character below U+0020, for the same reason.
- Ciphers.Caesar: states only length and non-letter preservation for every `int` shift. Case preservation and the round trip are proved (`CaesarKeepsCase`, `CaesarRoundTrip`) only for shifts where Java's arithmetic agrees with the intended one; the Findings show why.
- The `Morse` decoder (`Decode`, `DecodeMessage`) has no counterpart in the repository. It exists to state what the encoder preserves.
- The comments next to the translation examples in `src/test/java/LoggerTest.java:59` and `:61` disagree with the code: "Hello" with "en" gets the unavailable note, and "Unknown" with "fr" stays "Unknown". The model follows `Logger.java`.

## Findings

| source | as written | input that shows it | evidently intended | confidence | as-written member | corrected member |
|---|---|---|---|---|---|---|
| src/main/java/org/example/Logger.java:147 | `(c - base + shift) % 26 + base` uses Java's truncating `%`, so a negative sum gives a character below `base` | shift -1 on "a" gives "`"; shift 1 then -1 on "z" gives "`" | letters wrap within the alphabet for any shift, so a negative shift decodes (floor modulo) | medium, not executed | Ciphers.CaesarNegativeShiftLeavesAlphabet | Ciphers.ShiftRoundTrip |
| src/main/java/org/example/Logger.java:147 | the sum `c - base + shift` is a 32-bit `int` and wraps for shifts near Integer.MAX_VALUE | shift 2147483647 on "y" gives "`" | the shift acts modulo 26, so 2147483647 moves 'y' to 'v' | low, not executed | Ciphers.CaesarOverflowLeavesAlphabet | Ciphers.ShiftRoundTrip |

=== FILE: ciphers.dfy ===
/**
 * The letter ciphers of the logger: the Caesar-cipher logger's per-character
 * shift, ROT13 and the two-substitution "leet" rewrite.
 *
 * The Caesar shift is modelled twice: `Caesar` computes exactly what the Java
 * expression `(char) ((c - base + shift) % 26 + base)` computes, with Java's
 * 32-bit `int` addition and truncating `%`; `Shift` is the floor-modulo
 * shift that the cipher is meant to be, and the two agree on every shift
 * from 0 up to the point where the Java sum overflows.
 */
module Ciphers {
  import opened Text

  // ---------------------------------------------------------------------------
  // Java int arithmetic
  // ---------------------------------------------------------------------------

  const MinInt32: int := -0x8000_0000
  const MaxInt32: int := 0x7FFF_FFFF

  newtype Int32 = x: int | -0x8000_0000 <= x < 0x8000_0000

  /** Two's-complement wrap-around of a Java `int` sum. */
  function Wrap32(x: int): (r: Int32)
    ensures MinInt32 <= x <= MaxInt32 ==> r as int == x
    ensures (r as int - x) % 0x1_0000_0000 == 0
  {
    ((x - MinInt32) % 0x1_0000_0000 + MinInt32) as Int32
  }

  /** Java's `a % 26`: the remainder takes the sign of the dividend. */
  function JavaRem26(a: int): (r: int)
    ensures a >= 0 ==> 0 <= r < 26
    ensures a < 0 ==> -26 < r <= 0
    ensures (a - r) % 26 == 0
  {
    if a >= 0 then a % 26 else -((-a) % 26)
  }

  /** The first letter of the case class of `c`. */
  function Base(c: char): (b: int)
    requires IsLetter(c)
    ensures 0 <= c as int - b < 26
  {
    if IsLower(c) then 'a' as int else 'A' as int
  }

  predicate SameCase(a: char, b: char) {
    (IsLower(a) <==> IsLower(b)) && (IsUpper(a) <==> IsUpper(b))
  }

  // ---------------------------------------------------------------------------
  // Caesar, as the logger computes it
  // ---------------------------------------------------------------------------

  function CaesarChar(c: char, shift: Int32): char {
    if IsLetter(c) then
      var v := JavaRem26(Wrap32(c as int - Base(c) + shift as int) as int) + Base(c);
      v as char
    else c
  }

  /** The message the Caesar-cipher logger prints, before printing. */
  function Caesar(m: string, shift: Int32): (r: string)
    ensures |r| == |m|
    ensures forall i :: 0 <= i < |m| && !IsLetter(m[i]) ==> r[i] == m[i]
  {
    seq(|m|, i requires 0 <= i < |m| => CaesarChar(m[i], shift))
  }

  // ---------------------------------------------------------------------------
  // The intended shift: floor modulo, any integer amount
  // ---------------------------------------------------------------------------

  function ShiftChar(c: char, n: int): (r: char)
    ensures IsLetter(c) ==> SameCase(c, r) && (r as int - c as int - n) % 26 == 0
    ensures !IsLetter(c) ==> r == c
  {
    if IsLetter(c) then ((c as int - Base(c) + n) % 26 + Base(c)) as char else c
  }

  /** A Caesar shift by `n` positions, correct for negative and huge `n`. */
  function Shift(m: string, n: int): (r: string)
    ensures |r| == |m|
    ensures forall i :: 0 <= i < |m| ==> r[i] == ShiftChar(m[i], n)
  {
    seq(|m|, i requires 0 <= i < |m| => ShiftChar(m[i], n))
  }

  lemma ShiftCharRoundTrip(c: char, n: int)
    ensures ShiftChar(ShiftChar(c, n), -n) == c
  {
    if IsLetter(c) {
      var d := ShiftChar(c, n);
      assert Base(d) == Base(c);
      var x := c as int - Base(c);
      assert (((x + n) % 26) - n) % 26 == x;
    }
  }

  /** Shifting back by the same amount restores every message, for every shift. */
  lemma ShiftRoundTrip(m: string, n: int)
    ensures Shift(Shift(m, n), -n) == m
  {
    forall i | 0 <= i < |m|
      ensures Shift(Shift(m, n), -n)[i] == m[i]
    {
      ShiftCharRoundTrip(m[i], n);
    }
  }

  /** While the Java sum cannot overflow, the logger's formula is the intended shift. */
  lemma CaesarIsShift(m: string, shift: Int32)
    requires 0 <= shift as int <= MaxInt32 - 25
    ensures Caesar(m, shift) == Shift(m, shift as int)
  {
  }

  /** For 0 <= n <= 26, shifting by n and then by 26 - n restores the message. */
  lemma CaesarRoundTrip(m: string, n: Int32)
    requires 0 <= n <= 26
    ensures Caesar(Caesar(m, n), 26 - n) == m
  {
    CaesarIsShift(m, n);
    CaesarIsShift(Shift(m, n as int), 26 - n);
    forall i | 0 <= i < |m|
      ensures ShiftChar(ShiftChar(m[i], n as int), 26 - n as int) == m[i]
    {
      ShiftCharRoundTrip(m[i], n as int);
      if IsLetter(m[i]) {
        var d := ShiftChar(m[i], n as int);
        assert (d as int - Base(d) + 26 - n as int) % 26 == (d as int - Base(d) - n as int) % 26;
      }
    }
  }

  /** With a shift between 0 and the overflow bound, letters stay letters of the same case. */
  lemma CaesarKeepsCase(m: string, shift: Int32)
    requires 0 <= shift as int <= MaxInt32 - 25
    ensures forall i :: 0 <= i < |m| ==> SameCase(Caesar(m, shift)[i], m[i])
  {
    CaesarIsShift(m, shift);
  }

  /** A negative shift leaves the alphabet: 'z' shifted by 1 and back by -1 becomes '`'. */
  lemma CaesarNegativeShiftLeavesAlphabet()
    ensures Caesar("a", -1) == "`"
    ensures Caesar(Caesar("z", 1), -1) == "`"
    ensures Shift(Shift("z", 1), -1) == "z"
  {
    ShiftRoundTrip("z", 1);
  }

  /** A shift near Integer.MAX_VALUE overflows the Java sum: 'y' becomes '`'. */
  lemma CaesarOverflowLeavesAlphabet()
    ensures Caesar("y", MaxInt32 as Int32) == "`"
    ensures Shift("y", MaxInt32) == "v"
  {
  }

  // ---------------------------------------------------------------------------
  // ROT13
  // ---------------------------------------------------------------------------

  function Rot13Char(c: char): char {
    if IsLetter(c) then ((c as int - Base(c) + 13) % 26 + Base(c)) as char else c
  }

  /** The message the ROT13 logger emits. */
  function Rot13(m: string): (r: string)
    ensures |r| == |m|
    ensures forall i :: 0 <= i < |m| ==> SameCase(r[i], m[i])
    ensures forall i :: 0 <= i < |m| ==> (IsLetter(r[i]) <==> IsLetter(m[i]))
    ensures forall i :: 0 <= i < |m| && !IsLetter(m[i]) ==> r[i] == m[i]
    ensures forall i :: 0 <= i < |m| && IsLetter(m[i]) ==> r[i] != m[i]
  {
    seq(|m|, i requires 0 <= i < |m| => Rot13Char(m[i]))
  }

  /** ROT13 is its own inverse. */
  lemma Rot13Involution(m: string)
    ensures Rot13(Rot13(m)) == m
  {
    var r := Rot13(m);
    forall i | 0 <= i < |m| ensures Rot13(r)[i] == m[i] {
      assert r[i] == Rot13Char(m[i]);
      Rot13CharInvolution(m[i]);
    }
  }

  lemma Rot13CharInvolution(c: char)
    ensures Rot13Char(Rot13Char(c)) == c
  {
    if IsLetter(c) {
      var d := Rot13Char(c);
      assert Base(d) == Base(c);
    }
  }

  /** ROT13 is the Caesar logger with shift 13. */
  lemma CaesarThirteenIsRot13(m: string)
    ensures Caesar(m, 13) == Rot13(m)
  {
  }

  // ---------------------------------------------------------------------------
  // Leet
  // ---------------------------------------------------------------------------

  /** `s.replace(x, y)` for one-character strings `x` and `y`. */
  function ReplaceChar(s: string, x: char, y: char): (r: string)
    ensures |r| == |s|
    ensures forall i :: 0 <= i < |s| ==> r[i] == (if s[i] == x then y else s[i])
  {
    seq(|s|, i requires 0 <= i < |s| => if s[i] == x then y else s[i])
  }

  /** `message.replace("o", "0").replace("s", "5")`. */
  function Leet(m: string): (r: string)
    ensures |r| == |m|
    ensures 'o' !in r && 's' !in r
    ensures forall i :: 0 <= i < |m| ==>
              r[i] == (if m[i] == 'o' then '0' else if m[i] == 's' then '5' else m[i])
  {
    ReplaceChar(ReplaceChar(m, 'o', '0'), 's', '5')
  }

  /** A second leet pass changes nothing. */
  lemma LeetIdempotent(m: string)
    ensures Leet(Leet(m)) == Leet(m)
  {
  }
}

=== FILE: classify.dfy ===
/**
 * The two loggers that look a message up rather than rewrite it character
 * by character: the sentiment highlighter, which colours a message green or
 * red by the keywords it mentions, and the fixed-phrase translator.
 */
module Classify {
  import opened Text

  // ---------------------------------------------------------------------------
  // logWithSentimentHighlight
  // ---------------------------------------------------------------------------

  const PositiveWords: seq<string> := ["good", "great", "happy", "fantastic"]
  const NegativeWords: seq<string> := ["bad", "sad", "hate", "terrible"]

  datatype Mood = Positive | Negative | Neutral

  /** Some word of `words` occurs, as a substring, in the lower-cased message. */
  predicate Mentions(m: string, words: seq<string>) {
    exists k :: 0 <= k < |words| && Contains(ToLower(m), words[k])
  }

  /** A positive keyword wins over a negative one; a message with neither is neutral. */
  function MoodOf(m: string): (mood: Mood)
    ensures mood == Positive <==>
              exists k, i :: 0 <= k < |PositiveWords| && OccursAt(ToLower(m), PositiveWords[k], i)
    ensures mood == Negative <==>
              (forall k, i :: 0 <= k < |PositiveWords| ==> !OccursAt(ToLower(m), PositiveWords[k], i)) &&
              (exists k, i :: 0 <= k < |NegativeWords| && OccursAt(ToLower(m), NegativeWords[k], i))
  {
    MentionsIff(m, PositiveWords);
    MentionsIff(m, NegativeWords);
    if Mentions(m, PositiveWords) then Positive
    else if Mentions(m, NegativeWords) then Negative
    else Neutral
  }

  /** `Mentions` read as an occurrence of some keyword at some offset. */
  lemma MentionsIff(m: string, words: seq<string>)
    ensures Mentions(m, words) <==> exists k, i :: 0 <= k < |words| && OccursAt(ToLower(m), words[k], i)
  {
    forall k | 0 <= k < |words| {
      ContainsIff(ToLower(m), words[k]);
    }
  }

  /** The message `logWithSentimentHighlight` hands to `log`. */
  function Sentiment(m: string, green: string, red: string, reset: string): (r: string)
    ensures MoodOf(m) == Positive ==> r == green + m + reset
    ensures MoodOf(m) == Negative ==> r == red + m + reset
    ensures MoodOf(m) == Neutral ==> r == m
  {
    match MoodOf(m)
    case Positive => green + m + reset
    case Negative => red + m + reset
    case Neutral => m
  }

  /** A keyword found at offset `i` puts each of its characters at the matching place. */
  lemma OccursChar(s: string, w: string, i: int, j: int)
    requires OccursAt(s, w, i) && 0 <= j < |w|
    ensures s[i + j] == w[j]
  {
    assert s[i..i + |w|][j] == s[i + j];
  }

  /**
   * Proof step only: every positive keyword has an 'a' or an 'o' as its
   * second or fourth letter, so a message with neither is not positive.
   */
  lemma NotPositiveWithoutAO(m: string)
    requires forall j :: 0 <= j < |m| ==> ToLower(m)[j] != 'a' && ToLower(m)[j] != 'o'
    ensures MoodOf(m) != Positive
  {
    var s := ToLower(m);
    forall k, i | 0 <= k < |PositiveWords| ensures !OccursAt(s, PositiveWords[k], i) {
      if OccursAt(s, PositiveWords[k], i) {
        OccursChar(s, PositiveWords[k], i, if k == 1 then 3 else 1);
      }
    }
  }

  /** A positive keyword wins even when a negative one comes first, whatever the case. */
  lemma SentimentPositiveFirst(green: string, red: string, reset: string)
    ensures Sentiment("Bad start, GOOD end", green, red, reset) == green + "Bad start, GOOD end" + reset
  {
    assert OccursAt(ToLower("Bad start, GOOD end"), PositiveWords[0], 11);
  }

  /** Keywords are found inside longer words. */
  lemma SentimentInsideWord(green: string, red: string, reset: string)
    ensures Sentiment("Fantastically", green, red, reset) == green + "Fantastically" + reset
  {
    assert OccursAt(ToLower("Fantastically"), PositiveWords[3], 0);
  }

  /** A negative keyword alone colours the message red. */
  lemma SentimentNegative(green: string, red: string, reset: string)
    ensures Sentiment("Terrible news", green, red, reset) == red + "Terrible news" + reset
  {
    NotPositiveWithoutAO("Terrible news");
    assert OccursAt(ToLower("Terrible news"), NegativeWords[3], 0);
  }

  /** A message too short to hold any keyword is logged unchanged. */
  lemma SentimentNeutral(green: string, red: string, reset: string)
    ensures Sentiment("ok", green, red, reset) == "ok"
  {
    forall k, i | 0 <= k < |PositiveWords| ensures !OccursAt(ToLower("ok"), PositiveWords[k], i) {
    }
    forall k, i | 0 <= k < |NegativeWords| ensures !OccursAt(ToLower("ok"), NegativeWords[k], i) {
    }
  }

  // ---------------------------------------------------------------------------
  // translate / logInLanguage
  // ---------------------------------------------------------------------------

  /** The `put` calls of `translate`, in program order. */
  const Puts: seq<(string, string)> := [
    ("Hello", "Hola"),
    ("Goodbye", "Adios"),
    ("Yes", "S\U{ED}"),
    ("No", "No"),
    ("Thank you", "Gracias"),
    ("Hello", "Bonjour"),
    ("Thank you", "Merci")
  ]

  /** The map after performing `puts` in order: a later `put` replaces an earlier one. */
  function Table(puts: seq<(string, string)>): (t: map<string, string>)
    ensures forall key :: key in t <==> exists k :: 0 <= k < |puts| && puts[k].0 == key
  {
    if puts == [] then map[]
    else
      var t0 := Table(puts[..|puts| - 1]);
      assert forall k :: 0 <= k < |puts| - 1 ==> puts[..|puts| - 1][k] == puts[k];
      t0[puts[|puts| - 1].0 := puts[|puts| - 1].1]
  }

  predicate LastPut(puts: seq<(string, string)>, key: string, k: int) {
    0 <= k < |puts| && puts[k].0 == key && forall k' :: k < k' < |puts| ==> puts[k'].0 != key
  }

  /** Every key maps to the value of the last `put` for it. */
  lemma {:induction false} TableLastWins(puts: seq<(string, string)>, key: string)
    requires key in Table(puts)
    ensures exists k :: LastPut(puts, key, k) && Table(puts)[key] == puts[k].1
  {
    var n := |puts| - 1;
    if puts[n].0 == key {
      assert LastPut(puts, key, n);
    } else {
      var init := puts[..n];
      TableLastWins(init, key);
      var k :| LastPut(init, key, k) && Table(init)[key] == init[k].1;
      assert LastPut(puts, key, k);
    }
  }

  const Dictionary: map<string, string> := Table(Puts)

  predicate Supported(code: string) {
    code == "es" || code == "fr"
  }

  /** The message `logInLanguage` hands to `log`. */
  function Translate(m: string, code: string): (r: string)
    ensures !Supported(code) ==> r == m + " (Translation unavailable)"
    ensures Supported(code) && m !in Dictionary ==> r == m
    ensures Supported(code) && m in Dictionary ==>
              exists k :: LastPut(Puts, m, k) && r == Puts[k].1
  {
    var translated :=
      if m in Dictionary then
        TableLastWins(Puts, m);
        Dictionary[m]
      else m;
    if !Supported(code) then m + " (Translation unavailable)" else translated
  }

  /** Only one `put` of a key is the last one. */
  lemma LastPutUnique(puts: seq<(string, string)>, key: string, k1: int, k2: int)
    requires LastPut(puts, key, k1) && LastPut(puts, key, k2)
    ensures k1 == k2
  {
  }

  /** The two supported codes share one table, so they translate alike. */
  lemma TranslateIgnoresLanguage(m: string)
    ensures Translate(m, "es") == Translate(m, "fr")
  {
  }

  /** "Hello" and "Thank you" were put twice: the French words replace the Spanish ones. */
  lemma TranslateOverridden()
    ensures Translate("Hello", "es") == "Bonjour"
    ensures Translate("Thank you", "es") == "Merci"
  {
    assert LastPut(Puts, "Hello", 5);
    assert LastPut(Puts, "Thank you", 6);
    forall k | LastPut(Puts, "Hello", k) ensures k == 5 {
      LastPutUnique(Puts, "Hello", k, 5);
    }
    forall k | LastPut(Puts, "Thank you", k) ensures k == 6 {
      LastPutUnique(Puts, "Thank you", k, 6);
    }
  }

  /** A phrase put once keeps its (Spanish) translation under either code. */
  lemma TranslatePutOnce()
    ensures Translate("Goodbye", "fr") == "Adios"
    ensures Translate("Yes", "es") == "S\U{ED}"
  {
    assert LastPut(Puts, "Goodbye", 1);
    assert LastPut(Puts, "Yes", 2);
    forall k | LastPut(Puts, "Goodbye", k) ensures k == 1 {
      LastPutUnique(Puts, "Goodbye", k, 1);
    }
    forall k | LastPut(Puts, "Yes", k) ensures k == 2 {
      LastPutUnique(Puts, "Yes", k, 2);
    }
  }

  /** Proof step only: the first letters of the phrases put into the table. */
  lemma PhraseInitials(k: int)
    requires 0 <= k < |Puts|
    ensures Puts[k].0 != [] && Puts[k].0[0] in {'H', 'G', 'Y', 'N', 'T'}
  {
  }

  /** "Unknown" is not in the table, so under "fr" it falls back to itself. */
  lemma TranslateUnknown()
    ensures Translate("Unknown", "fr") == "Unknown"
  {
    forall k | 0 <= k < |Puts| ensures Puts[k].0 != "Unknown" {
      PhraseInitials(k);
    }
    assert "Unknown" !in Dictionary;
  }

  /** An unsupported code gets the note, even for a phrase in the table. */
  lemma TranslateUnsupported()
    ensures Translate("Hello", "en") == "Hello" + " (Translation unavailable)"
  {
  }
}

=== FILE: decorate.dfy ===
/**
 * The loggers that wrap a message without touching its characters: a
 * prefix, a fixed "Detailed Log" label, a bracketed upper-cased category, an
 * emoji, and ANSI colour and style codes around the message.
 *
 * The ANSI codes and the emoji symbol are constants of classes that are not
 * part of this model, so they are parameters here. For each wrapper the
 * message can be read back from the logged line by dropping a prefix whose
 * length depends only on the other arguments (and, for the coloured forms, the
 * reset suffix), so no two messages wrap to the same line.
 */
module Decorate {
  import opened Text

  /** The part of `line` left after dropping `front` characters and `back` characters. */
  function Unframe(line: string, front: nat, back: nat): string
    requires front + back <= |line|
  {
    line[front..|line| - back]
  }

  /** `logWithPrefix`: the prefix, a colon and a space, then the message. */
  function Prefix(prefix: string, m: string): (r: string)
    ensures |r| == |prefix| + 2 + |m|
    ensures r[..|prefix|] == prefix && r[|prefix|..|prefix| + 2] == ": "
  {
    prefix + ": " + m
  }

  lemma PrefixUnframe(prefix: string, m: string)
    ensures Unframe(Prefix(prefix, m), |prefix| + 2, 0) == m
  {
  }

  /** `logWithDetails`. */
  function Details(m: string): (r: string)
    ensures |r| == |m| + 14 && r[..14] == "Detailed Log: "
  {
    "Detailed Log: " + m
  }

  lemma DetailsUnframe(m: string)
    ensures Unframe(Details(m), 14, 0) == m
  {
  }

  /** `logWithCategory`: the category upper-cased in brackets, a space, then the message. */
  function Category(m: string, category: string): (r: string)
    ensures |r| == |category| + 3 + |m|
    ensures r[0] == '[' && r[|category| + 1..|category| + 3] == "] "
    ensures forall i :: 1 <= i <= |category| ==> r[i] == ToUpperChar(category[i - 1])
  {
    "[" + ToUpper(category) + "] " + m
  }

  lemma CategoryUnframe(m: string, category: string)
    ensures Unframe(Category(m, category), |category| + 3, 0) == m
  {
  }

  /** The category's case does not matter: `[ERROR]`, `[error]` and `[Error]` coincide. */
  lemma CategoryCaseBlind(m: string, category: string)
    ensures Category(m, category) == Category(m, ToUpper(category))
    ensures Category(m, category) == Category(m, ToLower(category))
  {
    assert ToUpper(ToUpper(category)) == ToUpper(category);
    assert ToUpper(ToLower(category)) == ToUpper(category);
  }

  /** `logWithEmoji`: the emoji's symbol, a space, then the message. */
  function Emoji(m: string, symbol: string): (r: string)
    ensures |r| == |symbol| + 1 + |m| && r[..|symbol|] == symbol && r[|symbol|] == ' '
  {
    symbol + " " + m
  }

  lemma EmojiUnframe(m: string, symbol: string)
    ensures Unframe(Emoji(m, symbol), |symbol| + 1, 0) == m
  {
  }

  /** `logInColor`: the colour code, the message and the reset code. */
  function Color(m: string, color: string, reset: string): (r: string)
    ensures |r| == |color| + |m| + |reset|
    ensures r[..|color|] == color && r[|r| - |reset|..] == reset
  {
    color + m + reset
  }

  lemma ColorUnframe(m: string, color: string, reset: string)
    ensures Unframe(Color(m, color, reset), |color|, |reset|) == m
  {
  }

  /** `logWithStyle`: foreground, background and effect codes, the message, the reset code. */
  function Style(m: string, color: string, background: string, effect: string, reset: string): (r: string)
    ensures |r| == |color| + |background| + |effect| + |m| + |reset|
    ensures r == Color(m, color + background + effect, reset)
  {
    color + background + effect + m + reset
  }

  lemma StyleUnframe(m: string, color: string, background: string, effect: string, reset: string)
    ensures Unframe(Style(m, color, background, effect, reset), |color| + |background| + |effect|, |reset|) == m
  {
    ColorUnframe(m, color + background + effect, reset);
  }

  /** `logInUppercase`: a second upper-casing changes nothing. */
  lemma UppercaseIdempotent(m: string)
    ensures ToUpper(ToUpper(m)) == ToUpper(m)
  {
  }

  /** Upper-casing loses only case: lower-casing afterwards equals lower-casing the message. */
  lemma UppercaseKeepsLetters(m: string)
    ensures ToLower(ToUpper(m)) == ToLower(m)
  {
  }
}

=== FILE: linguistic.dfy ===
/**
 * The word-level linguistic transforms of the logger: pig latin (with its
 * whitespace-preserving tokenizer), vowel removal, upper-casing, whole-message
 * reversal, conditional word reversal and synonym substitution.
 */
module Linguistic {
  import opened Text

  // ---------------------------------------------------------------------------
  // Pig latin
  // ---------------------------------------------------------------------------

  /** `"aeiouAEIOU".indexOf(c) != -1`. */
  predicate IsVowel(c: char)
    ensures IsVowel(c) <==> c in "aeiouAEIOU"
  {
    c == 'a' || c == 'e' || c == 'i' || c == 'o' || c == 'u'
    || c == 'A' || c == 'E' || c == 'I' || c == 'O' || c == 'U'
  }

  predicate NotVowel(c: char) {
    !IsVowel(c)
  }

  /** `w.matches("[a-zA-Z]+")`. */
  predicate IsAlphaWord(w: string) {
    |w| > 0 && forall k :: 0 <= k < |w| ==> IsLetter(w[k])
  }

  /** A token of the pig-latin tokenizer that is one whitespace character. */
  predicate IsSeparator(t: string) {
    |t| == 1 && IsSpace(t[0])
  }

  /**
   * The pieces of `split("(?<=\\s)|(?=\\s)")` on a non-empty message: every
   * whitespace character on its own, and every maximal run of other
   * characters. (A zero-width match at the start yields no leading empty
   * piece, and the trailing empty piece is dropped.)
   */
  function Pieces(s: string): seq<string>
    decreases |s|
  {
    if s == [] then []
    else if IsSpace(s[0]) then [[s[0]]] + Pieces(s[1..])
    else
      var n := RunLen(s, NotSpace);
      [s[..n]] + Pieces(s[n..])
  }

  /** The tokenizer as Java runs it: `""`, which has no match, splits to `[""]`. */
  function SplitAroundSpaces(s: string): seq<string> {
    if s == [] then [[]] else Pieces(s)
  }

  /**
   * A token sequence the tokenizer can produce: each token a single
   * whitespace character or a non-empty whitespace-free run, and no two runs
   * side by side.
   */
  predicate WellFormed(ts: seq<string>) {
    && (forall i :: 0 <= i < |ts| ==> IsSeparator(ts[i]) || (ts[i] != [] && NoSpace(ts[i])))
    && (forall i :: 0 <= i < |ts| - 1 ==> IsSeparator(ts[i]) || IsSeparator(ts[i + 1]))
  }

  lemma {:induction false} PiecesWellFormed(s: string)
    ensures WellFormed(Pieces(s))
    ensures Concat(Pieces(s)) == s
    ensures s != [] ==> |Pieces(s)| > 0 && Pieces(s)[0][0] == s[0]
    decreases |s|
  {
    if s != [] && IsSpace(s[0]) {
      PiecesWellFormed(s[1..]);
      SpaceStep(s);
    } else if s != [] {
      var n := RunLen(s, NotSpace);
      PiecesWellFormed(s[n..]);
      RunStep(s, n);
    }
  }

  /** The three facts `PiecesWellFormed` states about one message. */
  predicate Tokenizes(s: string) {
    && WellFormed(Pieces(s))
    && Concat(Pieces(s)) == s
    && (s != [] ==> |Pieces(s)| > 0 && Pieces(s)[0][0] == s[0])
  }

  lemma SpaceStep(s: string)
    requires s != [] && IsSpace(s[0]) && Tokenizes(s[1..])
    ensures Tokenizes(s)
  {
    var rest := s[1..];
    ConsWellFormed([s[0]], Pieces(rest));
    ConcatCons([s[0]], rest, Pieces(rest));
    assert s == [s[0]] + rest;
  }

  lemma RunStep(s: string, n: nat)
    requires s != [] && !IsSpace(s[0]) && n == RunLen(s, NotSpace) && Tokenizes(s[n..])
    ensures Tokenizes(s)
  {
    var rest := s[n..];
    RunThenSeparator(s, n, Pieces(rest));
    ConsWellFormed(s[..n], Pieces(rest));
    ConcatCons(s[..n], rest, Pieces(rest));
    assert s == s[..n] + rest;
  }

  /** A token placed before well-formed tokens keeps them well formed when it is a separator or a run followed by one. */
  lemma ConsWellFormed(t: string, ts: seq<string>)
    requires WellFormed(ts)
    requires IsSeparator(t) || (t != [] && NoSpace(t) && (ts == [] || IsSeparator(ts[0])))
    ensures WellFormed([t] + ts)
  {
    var u := [t] + ts;
    assert forall i :: 0 < i < |u| ==> u[i] == ts[i - 1];
  }

  /** The maximal non-whitespace run at the front is non-empty and is followed by a separator or nothing. */
  lemma RunThenSeparator(s: string, n: nat, ts: seq<string>)
    requires s != [] && !IsSpace(s[0]) && n == RunLen(s, NotSpace)
    requires WellFormed(ts) && (s[n..] != [] ==> |ts| > 0 && ts[0][0] == s[n])
    requires s[n..] == [] ==> ts == []
    ensures 0 < n && s[..n] != [] && NoSpace(s[..n])
    ensures ts == [] || IsSeparator(ts[0])
  {
    assert NotSpace(s[0]);
    if ts != [] {
      assert !NotSpace(s[n]);
      assert !NoSpace(ts[0]);
    }
  }

  /** The tokenizer reads a well-formed token sequence back from its concatenation. */
  lemma {:induction false} PiecesOfConcat(ts: seq<string>)
    requires WellFormed(ts)
    ensures Pieces(Concat(ts)) == ts
  {
    if ts != [] {
      var rest := ts[1..];
      assert WellFormed(rest) by {
        assert forall i :: 0 <= i < |rest| ==> rest[i] == ts[i + 1];
      }
      PiecesOfConcat(rest);
      var c := Concat(rest);
      if rest != [] {
        assert c == rest[0] + Concat(rest[1..]);
      }
      if IsSeparator(ts[0]) {
        assert Concat(ts) == [ts[0][0]] + c;
        assert (Concat(ts))[1..] == c;
      } else {
        var w := ts[0];
        assert Concat(ts) == w + c;
        assert c == [] || !NotSpace(c[0]);
        RunLenAppend(w, c, NotSpace);
        assert (w + c)[..|w|] == w;
        assert (w + c)[|w|..] == c;
      }
    }
  }

  /**
   * `convertToPigLatin`. A vowel-initial word gains "way"; otherwise the
   * leading consonant cluster moves behind the rest and "ay" follows, and a
   * capitalised word comes out capitalised with everything else in lower case.
   */
  function ConvertToPigLatin(word: string): (r: string)
    requires |word| > 0
    ensures IsVowel(word[0]) ==> r == word + "way"
    ensures |r| == |word| + (if IsVowel(word[0]) then 3 else 2)
    ensures !IsVowel(word[0]) ==> r[|r| - 2..] == "ay"
    ensures !IsVowel(word[0]) && IsUpper(word[0]) ==>
              !IsLower(r[0]) && forall k :: 1 <= k < |r| ==> !IsUpper(r[k])
  {
    if IsVowel(word[0]) then word + "way"
    else
      var k := RunLen(ToLower(word), NotVowel);
      var p := word[k..] + word[..k] + "ay";
      if IsUpper(word[0]) then [ToUpperChar(p[0])] + ToLower(p[1..]) else p
  }

  /** A consonant cluster: `k` leading non-vowels, followed by a vowel or the end. */
  predicate ClusterEnd(w: string, k: int) {
    && 0 <= k <= |w|
    && (forall i :: 0 <= i < k ==> !IsVowel(w[i]))
    && (k == |w| || IsVowel(w[k]))
  }

  lemma LowerKeepsVowels(c: char)
    ensures IsVowel(ToLowerChar(c)) <==> IsVowel(c)
  {
  }

  lemma ClusterOfRun(word: string)
    ensures ClusterEnd(word, RunLen(ToLower(word), NotVowel))
  {
    var k := RunLen(ToLower(word), NotVowel);
    forall i | 0 <= i <= k && i < |word|
      ensures (i < k ==> !IsVowel(word[i])) && (i == k ==> IsVowel(word[i]))
    {
      LowerKeepsVowels(word[i]);
    }
  }

  /** Capitalising the first letter and lowering the rest is invisible after lowering. */
  lemma LowerOfCapitalised(p: string)
    requires |p| > 0
    ensures ToLower([ToUpperChar(p[0])] + ToLower(p[1..])) == ToLower(p)
  {
    var r := [ToUpperChar(p[0])] + ToLower(p[1..]);
    forall i | 0 <= i < |p| ensures ToLower(r)[i] == ToLower(p)[i] {
      if i > 0 {
        assert r[i] == ToLowerChar(p[i]);
      }
    }
  }

  /**
   * Up to letter case, a consonant-initial word becomes the rotation that
   * starts at its first vowel, followed by "ay"; when it is not capitalised
   * the case is kept as well.
   */
  lemma PigLatinRotation(word: string)
    requires |word| > 0 && !IsVowel(word[0])
    ensures exists k :: ClusterEnd(word, k) &&
              ToLower(ConvertToPigLatin(word)) == ToLower(word[k..] + word[..k] + "ay") &&
              (!IsUpper(word[0]) ==> ConvertToPigLatin(word) == word[k..] + word[..k] + "ay")
  {
    var k := RunLen(ToLower(word), NotVowel);
    ClusterOfRun(word);
    var p := word[k..] + word[..k] + "ay";
    if IsUpper(word[0]) {
      LowerOfCapitalised(p);
    }
    assert ToLower(ConvertToPigLatin(word)) == ToLower(p);
  }

  /** A word with no vowel at all gets "ay" appended (capitalised: case-normalised). */
  lemma PigLatinNoVowel(word: string)
    requires |word| > 0 && forall i :: 0 <= i < |word| ==> !IsVowel(word[i])
    ensures !IsUpper(word[0]) ==> ConvertToPigLatin(word) == word + "ay"
    ensures ToLower(ConvertToPigLatin(word)) == ToLower(word + "ay")
  {
    var k := RunLen(ToLower(word), NotVowel);
    ClusterOfRun(word);
    ClusterUnique(word, k, |word|);
    var p := word[k..] + word[..k] + "ay";
    assert p == word + "ay" by {
      assert word[k..] == [] && word[..k] == word;
    }
    if IsUpper(word[0]) {
      LowerOfCapitalised(p);
    }
  }

  lemma ClusterUnique(w: string, k1: int, k2: int)
    requires ClusterEnd(w, k1) && ClusterEnd(w, k2)
    ensures k1 == k2
  {
  }

  /** Converting a `[a-zA-Z]+` word gives a `[a-zA-Z]+` word. */
  lemma PigLatinAlpha(word: string)
    requires IsAlphaWord(word)
    ensures IsAlphaWord(ConvertToPigLatin(word))
  {
    if !IsVowel(word[0]) {
      var k := RunLen(ToLower(word), NotVowel);
      var p := word[k..] + word[..k] + "ay";
      LettersOfRotation(word, k);
      if IsUpper(word[0]) {
        LettersOfCapitalised(p);
      }
    }
  }

  predicate AllLetters(w: string) {
    forall k :: 0 <= k < |w| ==> IsLetter(w[k])
  }

  lemma LettersOfRotation(word: string, k: nat)
    requires IsAlphaWord(word) && k <= |word|
    ensures AllLetters(word[k..] + word[..k] + "ay")
  {
    var a, b := word[k..], word[..k];
    assert AllLetters(a) && AllLetters(b);
    LettersAppend(a, b);
    LettersAppend(a + b, "ay");
  }

  lemma LettersAppend(a: string, b: string)
    requires AllLetters(a) && AllLetters(b)
    ensures AllLetters(a + b)
  {
    forall k | 0 <= k < |a + b| ensures IsLetter((a + b)[k]) {
      if k >= |a| {
        assert (a + b)[k] == b[k - |a|];
      }
    }
  }

  /** Changing letter case keeps letters letters. */
  lemma LettersOfCapitalised(p: string)
    requires |p| > 0 && AllLetters(p)
    ensures AllLetters([ToUpperChar(p[0])] + ToLower(p[1..]))
  {
    var t := ToLower(p[1..]);
    assert AllLetters(t) by {
      forall k | 0 <= k < |t| ensures IsLetter(t[k]) {
        assert p[1..][k] == p[k + 1];
      }
    }
    LettersAppend([ToUpperChar(p[0])], t);
  }

  /** What the pig-latin loop appends for one token. */
  function PigLatinToken(t: string): string {
    if IsAlphaWord(t) then ConvertToPigLatin(t) else t
  }

  function MapPigLatin(ts: seq<string>): (rs: seq<string>)
    ensures |rs| == |ts|
    ensures forall i :: 0 <= i < |ts| ==> rs[i] == PigLatinToken(ts[i])
  {
    seq(|ts|, i requires 0 <= i < |ts| => PigLatinToken(ts[i]))
  }

  /** The StringBuilder contents before the final `trim()`. */
  function PigLatinBody(m: string): string {
    Concat(MapPigLatin(SplitAroundSpaces(m)))
  }

  /**
   * The message `logInPigLatin` hands to `log`. The final `trim()` only
   * matters for a message that starts or ends with a blank: otherwise the
   * converted text already starts and ends as the message does, or with a
   * letter of a converted word.
   */
  function PigLatin(m: string): (r: string)
    ensures r == [] || (!IsBlank(r[0]) && !IsBlank(r[|r| - 1]))
    ensures m != [] && !IsBlank(m[0]) && !IsBlank(m[|m| - 1]) ==> r == PigLatinBody(m)
    ensures (forall k :: 0 <= k < |m| && IsBlank(m[k]) ==> IsSpace(m[k])) ==> r == PigLatinBody(Trim(m))
  {
    var b := PigLatinBody(m);
    TrimmedBody(m);
    if m != [] && !IsBlank(m[0]) && !IsBlank(m[|m| - 1]) then
      BodyEnds(m);
      Trim(b)
    else Trim(b)
  }

  /**
   * When the blanks of a message are all `\s` whitespace, trimming the
   * converted text is converting the trimmed message: the whitespace around
   * the message passes through as single-character tokens and the trim
   * removes exactly those.
   */
  lemma TrimmedBody(m: string)
    ensures (forall k :: 0 <= k < |m| && IsBlank(m[k]) ==> IsSpace(m[k])) ==>
              Trim(PigLatinBody(m)) == PigLatinBody(Trim(m))
  {
    if m == [] {
      BodyOfEmpty();
    } else if forall k :: 0 <= k < |m| && IsBlank(m[k]) ==> IsSpace(m[k]) {
      var lead, trail := TrimSplit(m);
      BlanksAreSpaces(m, lead, Trim(m), trail);
      TrimmedFrame(lead, Trim(m), trail);
    }
  }

  lemma BodyOfEmpty()
    ensures PigLatinBody([]) == []
  {
    assert MapPigLatin([[]]) == [[]];
  }

  /** Trimming the conversion of a whitespace-framed core gives the core's conversion. */
  lemma TrimmedFrame(lead: string, core: string, trail: string)
    requires AllSpace(lead) && AllSpace(trail) && lead + core + trail != []
    requires core == [] || (!IsBlank(core[0]) && !IsBlank(core[|core| - 1]))
    ensures Trim(PigLatinBody(lead + core + trail)) == PigLatinBody(core)
  {
    BodyFrame(lead, core, trail);
    if core != [] {
      BodyEnds(core);
    } else {
      BodyOfEmpty();
    }
    SpacesAreBlank(lead);
    SpacesAreBlank(trail);
    TrimFrame(lead, PigLatinBody(core), trail);
  }

  lemma SpacesAreBlank(x: string)
    requires AllSpace(x)
    ensures forall k :: 0 <= k < |x| ==> IsBlank(x[k])
  {
  }

  lemma BlanksAreSpaces(m: string, lead: string, core: string, trail: string)
    requires m == lead + core + trail
    requires forall k :: 0 <= k < |m| && IsBlank(m[k]) ==> IsSpace(m[k])
    requires forall k :: 0 <= k < |lead| ==> IsBlank(lead[k])
    requires forall k :: 0 <= k < |trail| ==> IsBlank(trail[k])
    ensures AllSpace(lead) && AllSpace(trail)
  {
    forall k | 0 <= k < |lead| ensures IsSpace(lead[k]) {
      assert lead[k] == m[k];
    }
    forall k | 0 <= k < |trail| ensures IsSpace(trail[k]) {
      assert trail[k] == m[|lead| + |core| + k];
    }
  }

  /** Whitespace around a message passes through the conversion unchanged. */
  lemma BodyFrame(lead: string, core: string, trail: string)
    requires AllSpace(lead) && AllSpace(trail)
    requires core == [] || (!IsBlank(core[0]) && !IsBlank(core[|core| - 1]))
    requires lead + core + trail != []
    ensures PigLatinBody(lead + core + trail) == lead + PigLatinBody(core) + trail
  {
    PiecesFrame(lead, core, trail);
    var inner := Pieces(core);
    MapAppend(Singles(lead), inner);
    MapAppend(Singles(lead) + inner, Singles(trail));
    MapSingles(lead);
    MapSingles(trail);
    var rs := MapPigLatin(inner);
    assert MapPigLatin(Pieces(lead + core + trail)) == Singles(lead) + rs + Singles(trail);
    ConcatSingles(lead);
    ConcatSingles(trail);
    ConcatAppend(Singles(lead), rs);
    ConcatAppend(Singles(lead) + rs, Singles(trail));
    if core == [] {
      BodyOfEmpty();
    }
  }

  /** The tokens of a message framed by whitespace: the whitespace one character at a time. */
  lemma PiecesFrame(lead: string, core: string, trail: string)
    requires AllSpace(lead) && AllSpace(trail)
    requires core == [] || (!IsBlank(core[0]) && !IsBlank(core[|core| - 1]))
    ensures Pieces(lead + core + trail) == Singles(lead) + Pieces(core) + Singles(trail)
  {
    var inner := Pieces(core);
    PiecesWellFormed(core);
    SinglesWellFormed(lead);
    SinglesWellFormed(trail);
    if core != [] {
      EndsNotSeparators(core, inner);
    }
    WellFormedJoin(Singles(lead), inner);
    WellFormedJoin(Singles(lead) + inner, Singles(trail));
    ConcatSingles(lead);
    ConcatSingles(trail);
    ConcatAppend(Singles(lead), inner);
    ConcatAppend(Singles(lead) + inner, Singles(trail));
    PiecesOfConcat(Singles(lead) + inner + Singles(trail));
  }

  /** A message with non-blank ends neither starts nor ends with a separator token. */
  lemma EndsNotSeparators(core: string, inner: seq<string>)
    requires core != [] && !IsBlank(core[0]) && !IsBlank(core[|core| - 1])
    requires inner == Pieces(core) && WellFormed(inner) && Concat(inner) == core
    ensures inner != [] && !IsSeparator(inner[0]) && !IsSeparator(inner[|inner| - 1])
  {
    assert inner != [];
    forall i | 0 <= i < |inner| ensures inner[i] != [] {
      assert IsSeparator(inner[i]) || inner[i] != [];
    }
    ConcatEnds(inner);
  }

  /** Every character of `x` as a token of its own. */
  function Singles(x: string): (ts: seq<string>)
    ensures |ts| == |x| && forall i :: 0 <= i < |x| ==> ts[i] == [x[i]]
  {
    seq(|x|, i requires 0 <= i < |x| => [x[i]])
  }

  lemma {:induction false} ConcatSingles(x: string)
    ensures Concat(Singles(x)) == x
  {
    if x != [] {
      ConcatSingles(x[1..]);
      assert Singles(x) == [[x[0]]] + Singles(x[1..]);
      ConcatCons([x[0]], x[1..], Singles(x[1..]));
      assert x == [x[0]] + x[1..];
    }
  }

  lemma SinglesWellFormed(x: string)
    requires AllSpace(x)
    ensures WellFormed(Singles(x))
    ensures forall i :: 0 <= i < |x| ==> IsSeparator(Singles(x)[i])
  {
  }

  lemma MapSingles(x: string)
    requires AllSpace(x)
    ensures MapPigLatin(Singles(x)) == Singles(x)
  {
    forall i | 0 <= i < |x| ensures PigLatinToken([x[i]]) == [x[i]] {
      assert !IsLetter(x[i]);
    }
  }

  lemma MapAppend(a: seq<string>, b: seq<string>)
    ensures MapPigLatin(a + b) == MapPigLatin(a) + MapPigLatin(b)
  {
  }

  /** Two well-formed token sequences stay well formed side by side when a separator meets the join. */
  lemma WellFormedJoin(a: seq<string>, b: seq<string>)
    requires WellFormed(a) && WellFormed(b)
    requires a == [] || b == [] || IsSeparator(a[|a| - 1]) || IsSeparator(b[0])
    ensures WellFormed(a + b)
  {
    var u := a + b;
    forall i | 0 <= i < |u| - 1 ensures IsSeparator(u[i]) || IsSeparator(u[i + 1]) {
      if i < |a| - 1 {
        assert u[i] == a[i] && u[i + 1] == a[i + 1];
      } else if i >= |a| {
        assert u[i] == b[i - |a|] && u[i + 1] == b[i - |a| + 1];
      }
    }
  }

  /** A converted token starts and ends with a non-blank whenever the token does. */
  lemma TokenEnds(t: string)
    requires t != []
    ensures PigLatinToken(t) != []
    ensures !IsBlank(t[0]) ==> !IsBlank(PigLatinToken(t)[0])
    ensures !IsBlank(t[|t| - 1]) ==> !IsBlank(PigLatinToken(t)[|PigLatinToken(t)| - 1])
  {
    if IsAlphaWord(t) {
      PigLatinAlpha(t);
      var r := ConvertToPigLatin(t);
      assert IsLetter(r[0]) && IsLetter(r[|r| - 1]);
    }
  }

  lemma BodyEnds(m: string)
    requires m != [] && !IsBlank(m[0]) && !IsBlank(m[|m| - 1])
    ensures PigLatinBody(m) != [] && !IsBlank(PigLatinBody(m)[0])
    ensures !IsBlank(PigLatinBody(m)[|PigLatinBody(m)| - 1])
  {
    var ts := Pieces(m);
    PiecesWellFormed(m);
    assert forall i :: 0 <= i < |ts| ==> ts[i] != [];
    ConcatEnds(ts);
    MappedEnds(ts);
  }

  /** Converting every token keeps a non-blank first and last character of the whole. */
  lemma MappedEnds(ts: seq<string>)
    requires |ts| > 0 && forall i :: 0 <= i < |ts| ==> ts[i] != []
    requires !IsBlank(ts[0][0]) && !IsBlank(ts[|ts| - 1][|ts[|ts| - 1]| - 1])
    ensures var c := Concat(MapPigLatin(ts)); c != [] && !IsBlank(c[0]) && !IsBlank(c[|c| - 1])
  {
    var rs := MapPigLatin(ts);
    TokenEnds(ts[0]);
    TokenEnds(ts[|ts| - 1]);
    forall i | 0 <= i < |rs| ensures rs[i] != [] {
      TokenEnds(ts[i]);
    }
    ConcatEnds(rs);
  }

  /**
   * Pig latin keeps the layout: tokenizing the converted text gives the same
   * number of tokens, every whitespace token and every non-word token is
   * unchanged, and each `[a-zA-Z]+` token is replaced by its conversion.
   */
  lemma PigLatinLayout(m: string)
    requires m != []
    ensures Pieces(PigLatinBody(m)) == MapPigLatin(Pieces(m))
    ensures forall i :: 0 <= i < |Pieces(m)| && !IsAlphaWord(Pieces(m)[i]) ==>
              MapPigLatin(Pieces(m))[i] == Pieces(m)[i]
  {
    PiecesWellFormed(m);
    MapKeepsWellFormed(Pieces(m));
    PiecesOfConcat(MapPigLatin(Pieces(m)));
  }

  /** Converting the word tokens keeps a token sequence well formed. */
  lemma MapKeepsWellFormed(ts: seq<string>)
    requires WellFormed(ts)
    ensures WellFormed(MapPigLatin(ts))
  {
    var rs := MapPigLatin(ts);
    forall i | 0 <= i < |ts|
      ensures IsSeparator(rs[i]) <==> IsSeparator(ts[i])
      ensures IsSeparator(rs[i]) || (rs[i] != [] && NoSpace(rs[i]))
    {
      if IsAlphaWord(ts[i]) {
        PigLatinAlpha(ts[i]);
      }
    }
  }

  // ---------------------------------------------------------------------------
  // Vowel removal
  // ---------------------------------------------------------------------------

  /** `message.replaceAll("[AEIOUaeiou]", "")`. */
  function RemoveVowels(m: string): (r: string)
    ensures forall k :: 0 <= k < |r| ==> !IsVowel(r[k])
    ensures forall c :: !IsVowel(c) ==> multiset(r)[c] == multiset(m)[c]
    ensures |r| <= |m|
  {
    if m == [] then []
    else
      assert m == [m[0]] + m[1..];
      if IsVowel(m[0]) then RemoveVowels(m[1..]) else [m[0]] + RemoveVowels(m[1..])
  }

  /** Vowel removal only deletes: it keeps the order and preserves a vowel-free message. */
  lemma {:induction false} RemoveVowelsAppend(a: string, b: string)
    ensures RemoveVowels(a + b) == RemoveVowels(a) + RemoveVowels(b)
  {
    if a == [] {
      assert a + b == b;
    } else {
      assert (a + b)[1..] == a[1..] + b;
      RemoveVowelsAppend(a[1..], b);
    }
  }

  lemma {:induction false} RemoveVowelsIdentity(m: string)
    requires forall k :: 0 <= k < |m| ==> !IsVowel(m[k])
    ensures RemoveVowels(m) == m
  {
    if m != [] {
      RemoveVowelsIdentity(m[1..]);
    }
  }

  lemma RemoveVowelsIdempotent(m: string)
    ensures RemoveVowels(RemoveVowels(m)) == RemoveVowels(m)
  {
    RemoveVowelsIdentity(RemoveVowels(m));
  }

  // ---------------------------------------------------------------------------
  // Conditional word reversal
  // ---------------------------------------------------------------------------

  function ReverseIfLong(w: string, threshold: int): string {
    if |w| > threshold then Reverse(w) else w
  }

  function ReverseLongWords(ws: seq<string>, threshold: int): (rs: seq<string>)
    ensures |rs| == |ws|
    ensures forall i :: 0 <= i < |ws| ==> rs[i] == ReverseIfLong(ws[i], threshold)
  {
    seq(|ws|, i requires 0 <= i < |ws| => ReverseIfLong(ws[i], threshold))
  }

  /**
   * The message `logWithConditionalReversedWords` hands to `log`. When the
   * words of the message carry no trimmable character, it is the
   * single-space join of the conditionally reversed words, whether or not
   * the message starts with whitespace (and so Split with an empty token).
   */
  function ConditionalReverse(m: string, threshold: int): (r: string)
    ensures Words(m) != [] && AllSolid(Words(m)) ==>
              r == Join(" ", ReverseLongWords(Words(m), threshold))
  {
    ReversedLine(m, threshold);
    Emit(ReverseLongWords(Split(m), threshold))
  }

  /**
   * Word by word: a word is reversed exactly when it is longer than the
   * threshold, every word keeps its length, and reversing twice with the
   * same threshold gives the words back.
   */
  lemma ReverseLongWordsSpec(ws: seq<string>, threshold: int)
    ensures forall i :: 0 <= i < |ws| ==>
              |ReverseLongWords(ws, threshold)[i]| == |ws[i]| &&
              (|ws[i]| > threshold ==> ReverseLongWords(ws, threshold)[i] == Reverse(ws[i])) &&
              (|ws[i]| <= threshold ==> ReverseLongWords(ws, threshold)[i] == ws[i])
    ensures ReverseLongWords(ReverseLongWords(ws, threshold), threshold) == ws
  {
    forall i | 0 <= i < |ws|
      ensures ReverseIfLong(ReverseIfLong(ws[i], threshold), threshold) == ws[i]
    {
      ReverseInvolution(ws[i]);
    }
  }

  lemma ReverseKeepsSolid(w: string)
    requires Solid(w)
    ensures Solid(Reverse(w))
  {
  }

  lemma ReversedLine(m: string, threshold: int)
    ensures Words(m) != [] && AllSolid(Words(m)) ==>
              Emit(ReverseLongWords(Split(m), threshold)) == Join(" ", ReverseLongWords(Words(m), threshold))
  {
    if Words(m) != [] && AllSolid(Words(m)) {
      var ws := Words(m);
      var rs := ReverseLongWords(ws, threshold);
      SplitWords(m);
      assert AllSolid(rs) by {
        forall i | 0 <= i < |rs| ensures Solid(rs[i]) {
          assert Solid(ws[i]);
          ReverseKeepsSolid(ws[i]);
        }
      }
      if Split(m) != ws {
        assert ReverseLongWords(Split(m), threshold) == [[]] + rs;
      }
      EmitWords(rs, ReverseLongWords(Split(m), threshold));
    }
  }

  /**
   * Logging the logged line again with the same threshold gives back the
   * words of the message joined by single spaces.
   */
  lemma ConditionalReverseTwice(m: string, threshold: int)
    requires Words(m) != [] && AllSolid(Words(m))
    ensures ConditionalReverse(ConditionalReverse(m, threshold), threshold) == Join(" ", Words(m))
  {
    var ws := Words(m);
    var rs := ReverseLongWords(ws, threshold);
    assert AllSolid(rs) by {
      forall i | 0 <= i < |rs| ensures Solid(rs[i]) {
        assert Solid(ws[i]);
        ReverseKeepsSolid(ws[i]);
      }
    }
    SolidPlain(rs);
    WordsOfJoin(rs);
    ReverseLongWordsSpec(ws, threshold);
  }

  // ---------------------------------------------------------------------------
  // Synonyms
  // ---------------------------------------------------------------------------

  /** `Map.of("happy", "content", "sad", "unhappy")`. */
  const SynonymTable: map<string, string> := map["happy" := "content", "sad" := "unhappy"]

  function Synonym(w: string): string {
    if w in SynonymTable then SynonymTable[w] else w
  }

  function SynonymWords(ws: seq<string>): (rs: seq<string>)
    ensures |rs| == |ws|
    ensures forall i :: 0 <= i < |ws| ==> rs[i] == Synonym(ws[i])
  {
    seq(|ws|, i requires 0 <= i < |ws| => Synonym(ws[i]))
  }

  /**
   * The line `logWithSynonyms` prints. When the words of the message carry
   * no trimmable character, it is the single-space join of the substituted
   * words and splits back into them.
   */
  function Synonyms(m: string): (r: string)
    ensures Words(m) != [] && AllSolid(Words(m)) ==>
              r == Join(" ", SynonymWords(Words(m))) && Split(r) == SynonymWords(Words(m))
  {
    SynonymLine(m);
    Emit(SynonymWords(Split(m)))
  }

  /**
   * Exactly the words "happy" and "sad" (case-sensitive, whole words) are
   * replaced; neither survives, and a second pass changes nothing.
   */
  lemma SynonymWordsSpec(ws: seq<string>)
    ensures forall i :: 0 <= i < |ws| ==>
              (SynonymWords(ws)[i] != ws[i] <==> ws[i] == "happy" || ws[i] == "sad")
    ensures forall i :: 0 <= i < |ws| ==>
              SynonymWords(ws)[i] != "happy" && SynonymWords(ws)[i] != "sad"
    ensures SynonymWords(SynonymWords(ws)) == SynonymWords(ws)
  {
  }

  lemma SynonymLine(m: string)
    ensures Words(m) != [] && AllSolid(Words(m)) ==>
              Emit(SynonymWords(Split(m))) == Join(" ", SynonymWords(Words(m))) &&
              Split(Emit(SynonymWords(Split(m)))) == SynonymWords(Words(m))
  {
    if Words(m) != [] && AllSolid(Words(m)) {
      SplitWords(m);
      SynonymEmit(Words(m), Split(m));
    }
  }

  lemma SynonymEmit(ws: seq<string>, vs: seq<string>)
    requires |ws| > 0 && AllSolid(ws)
    requires vs == ws || vs == [[]] + ws
    ensures Emit(SynonymWords(vs)) == Join(" ", SynonymWords(ws))
    ensures Split(Emit(SynonymWords(vs))) == SynonymWords(ws)
  {
    var rs := SynonymWords(ws);
    assert AllSolid(rs) by {
      forall i | 0 <= i < |rs| ensures Solid(rs[i]) {
        assert Solid(ws[i]);
      }
    }
    if vs != ws {
      assert SynonymWords(vs)[0] == Synonym([]) == [];
      assert SynonymWords(vs) == [[]] + rs;
    }
    EmitWords(rs, SynonymWords(vs));
  }
}

=== FILE: morse.dfy ===
/**
 * The Morse-code logger: a fixed 40-entry table (letters, digits and
 * `. , ? !`) and an encoder that lowercases the message, writes one piece per
 * character and trims the result.
 *
 * The source has no decoder. `Decode` and `DecodeMessage` below are the
 * partners used to state what the encoder preserves: the table is injective,
 * and decoding the encoder's output gives back the lowercased message minus
 * the characters the encoder reported as untranslatable.
 */
module Morse {
  import opened Text

  /** The 40 characters the table maps: a-z, 0-9 and `. , ? !`. */
  predicate InTable(c: char) {
    IsLower(c) || IsDigit(c) || c == '.' || c == ',' || c == '?' || c == '!'
  }

  /**
   * `createMorseCodeMap().get(c)`. The 40 entries are split into four
   * sub-tables by character class; together they are the map.
   */
  function Code(c: char): Option<string> {
    if 'a' <= c <= 'm' then FirstLetterCode(c)
    else if 'n' <= c <= 'z' then LastLetterCode(c)
    else if '0' <= c <= '9' then DigitCode(c)
    else MarkCode(c)
  }

  /** The entries for `a` to `m`. */
  function FirstLetterCode(c: char): Option<string> {
    match c
    case 'a' => Some(".-")
    case 'b' => Some("-...")
    case 'c' => Some("-.-.")
    case 'd' => Some("-..")
    case 'e' => Some(".")
    case 'f' => Some("..-.")
    case 'g' => Some("--.")
    case 'h' => Some("....")
    case 'i' => Some("..")
    case 'j' => Some(".---")
    case 'k' => Some("-.-")
    case 'l' => Some(".-..")
    case 'm' => Some("--")
    case _ => None
  }

  /** The entries for `n` to `z`. */
  function LastLetterCode(c: char): Option<string> {
    match c
    case 'n' => Some("-.")
    case 'o' => Some("---")
    case 'p' => Some(".--.")
    case 'q' => Some("--.-")
    case 'r' => Some(".-.")
    case 's' => Some("...")
    case 't' => Some("-")
    case 'u' => Some("..-")
    case 'v' => Some("...-")
    case 'w' => Some(".--")
    case 'x' => Some("-..-")
    case 'y' => Some("-.--")
    case 'z' => Some("--..")
    case _ => None
  }

  /** The entries for `0` to `9`. */
  function DigitCode(c: char): Option<string> {
    match c
    case '0' => Some("-----")
    case '1' => Some(".----")
    case '2' => Some("..---")
    case '3' => Some("...--")
    case '4' => Some("....-")
    case '5' => Some(".....")
    case '6' => Some("-....")
    case '7' => Some("--...")
    case '8' => Some("---..")
    case '9' => Some("----.")
    case _ => None
  }

  /** The entries for `.`, `,`, `?` and `!`. */
  function MarkCode(c: char): Option<string> {
    match c
    case '.' => Some(".-.-.-")
    case ',' => Some("--..--")
    case '?' => Some("..--..")
    case '!' => Some("-.-.--")
    case _ => None
  }

  predicate IsSignal(c: char) {
    c == '.' || c == '-'
  }

  /** A non-empty string of dots and dashes. */
  predicate IsSignalWord(w: string) {
    |w| > 0 && forall k :: 0 <= k < |w| ==> IsSignal(w[k])
  }

  /** 1 when signal `k` of `w` is a dash, else 0. */
  function Dash(w: string, k: nat): nat {
    if k < |w| && w[k] == '-' then 1 else 0
  }

  /**
   * A dot/dash word of at most six signals read as a binary numeral (a dash
   * is a one, the first signal the lowest digit), tagged with its length so
   * that words of different lengths never share a key.
   */
  function Key(w: string): nat
    requires |w| <= 6
  {
    64 * |w| + Dash(w, 0) + 2 * Dash(w, 1) + 4 * Dash(w, 2)
      + 8 * Dash(w, 3) + 16 * Dash(w, 4) + 32 * Dash(w, 5)
  }

  function CharOfKey(k: nat): Option<char> {
    match k
    case 64 => Some('e')  // .
    case 65 => Some('t')  // -
    case 128 => Some('i')  // ..
    case 129 => Some('n')  // -.
    case 130 => Some('a')  // .-
    case 131 => Some('m')  // --
    case 192 => Some('s')  // ...
    case 193 => Some('d')  // -..
    case 194 => Some('r')  // .-.
    case 195 => Some('g')  // --.
    case 196 => Some('u')  // ..-
    case 197 => Some('k')  // -.-
    case 198 => Some('w')  // .--
    case 199 => Some('o')  // ---
    case 256 => Some('h')  // ....
    case 257 => Some('b')  // -...
    case 258 => Some('l')  // .-..
    case 259 => Some('z')  // --..
    case 260 => Some('f')  // ..-.
    case 261 => Some('c')  // -.-.
    case 262 => Some('p')  // .--.
    case 264 => Some('v')  // ...-
    case 265 => Some('x')  // -..-
    case 267 => Some('q')  // --.-
    case 269 => Some('y')  // -.--
    case 270 => Some('j')  // .---
    case 320 => Some('5')  // .....
    case 321 => Some('6')  // -....
    case 323 => Some('7')  // --...
    case 327 => Some('8')  // ---..
    case 335 => Some('9')  // ----.
    case 336 => Some('4')  // ....-
    case 344 => Some('3')  // ...--
    case 348 => Some('2')  // ..---
    case 350 => Some('1')  // .----
    case 351 => Some('0')  // -----
    case 396 => Some('?')  // ..--..
    case 426 => Some('.')  // .-.-.-
    case 435 => Some(',')  // --..--
    case 437 => Some('!')  // -.-.--
    case _ => None
  }

  /** The inverse table lookup. */
  function Decode(w: string): Option<char> {
    if IsSignalWord(w) && |w| <= 6 then CharOfKey(Key(w)) else None
  }

  /** A table entry: a code of at most six dots and dashes that decodes back to its character. */
  predicate Entry(c: char) {
    && Code(c).Some?
    && IsSignalWord(Code(c).value) && |Code(c).value| <= 6
    && Decode(Code(c).value) == Some(c)
  }

  /** Exactly the 40 listed characters have a code, and every code is dots and dashes. */
  lemma CodeDomain(c: char)
    ensures Code(c).Some? <==> InTable(c)
    ensures Code(c).Some? ==> IsSignalWord(Code(c).value) && |Code(c).value| <= 6
  {
    TableEntries(c);
  }

  /** Decoding a table code gives back its character. */
  lemma DecodeCode(c: char)
    ensures Code(c).Some? ==> Decode(Code(c).value) == Some(c)
  {
    TableEntries(c);
  }

  /** Every character of the table is an entry; every other character has no code. */
  lemma TableEntries(c: char)
    ensures InTable(c) ==> Entry(c)
    ensures !InTable(c) ==> Code(c).None?
  {
    if 'a' <= c <= 'e' {
      EntriesAE(c);
    } else if 'f' <= c <= 'j' {
      EntriesFJ(c);
    } else if 'k' <= c <= 'o' {
      EntriesKO(c);
    } else if 'p' <= c <= 't' {
      EntriesPT(c);
    } else if 'u' <= c <= 'z' {
      EntriesUZ(c);
    } else if '0' <= c <= '2' {
      EntriesDigitsLow(c);
    } else if '3' <= c <= '5' {
      EntriesDigitsMiddle(c);
    } else if '6' <= c <= '9' {
      EntriesDigitsHigh(c);
    } else if c == '.' || c == ',' {
      EntriesPunctuation(c);
    } else if c == '?' || c == '!' {
      EntriesMarks(c);
    }
  }

  lemma EntriesAE(c: char)
    requires 'a' <= c <= 'e'
    ensures Entry(c)
  {
    match c
    case 'a' => case 'b' => case 'c' => case 'd' => case 'e' =>
    case _ => assert false;
  }

  lemma EntriesFJ(c: char)
    requires 'f' <= c <= 'j'
    ensures Entry(c)
  {
    match c
    case 'f' => case 'g' => case 'h' => case 'i' => case 'j' =>
    case _ => assert false;
  }

  lemma EntriesKO(c: char)
    requires 'k' <= c <= 'o'
    ensures Entry(c)
  {
    match c
    case 'k' => case 'l' => case 'm' => case 'n' => case 'o' =>
    case _ => assert false;
  }

  lemma EntriesPT(c: char)
    requires 'p' <= c <= 't'
    ensures Entry(c)
  {
    match c
    case 'p' => case 'q' => case 'r' => case 's' => case 't' =>
    case _ => assert false;
  }

  lemma EntriesUZ(c: char)
    requires 'u' <= c <= 'z'
    ensures Entry(c)
  {
    match c
    case 'u' => case 'v' => case 'w' => case 'x' => case 'y' => case 'z' =>
    case _ => assert false;
  }

  lemma EntriesDigitsLow(c: char)
    requires '0' <= c <= '2'
    ensures Entry(c)
  {
    match c
    case '0' => case '1' => case '2' =>
    case _ => assert false;
  }

  lemma EntriesDigitsMiddle(c: char)
    requires '3' <= c <= '5'
    ensures Entry(c)
  {
    match c
    case '3' => case '4' => case '5' =>
    case _ => assert false;
  }

  lemma EntriesDigitsHigh(c: char)
    requires '6' <= c <= '9'
    ensures Entry(c)
  {
    match c
    case '6' => case '7' => case '8' => case '9' =>
    case _ => assert false;
  }

  lemma EntriesPunctuation(c: char)
    requires c == '.' || c == ','
    ensures Entry(c)
  {
    match c
    case '.' => case ',' =>
    case _ => assert false;
  }

  lemma EntriesMarks(c: char)
    requires c == '?' || c == '!'
    ensures Entry(c)
  {
    match c
    case '?' => case '!' =>
    case _ => assert false;
  }

  /** The 40 table codes are pairwise distinct. */
  lemma CodesDistinct(c: char, d: char)
    requires Code(c).Some? && Code(d).Some? && c != d
    ensures Code(c).value != Code(d).value
  {
    DecodeCode(c);
    DecodeCode(d);
  }

  // ---------------------------------------------------------------------------
  // The encoder
  // ---------------------------------------------------------------------------

  /** What the encoder appends for one (already lowercased) character. */
  function Piece(c: char): (p: string)
    ensures c == ' ' ==> p == "/ "
    ensures c != ' ' && Code(c).Some? ==> p == Code(c).value + " "
    ensures c != ' ' && Code(c).None? ==> p == ""
  {
    if c == ' ' then "/ "
    else match Code(c)
      case Some(w) => w + " "
      case None => ""
  }

  /** The StringBuilder contents before `trim()`. */
  function Body(s: string): string {
    if s == [] then [] else Piece(s[0]) + Body(s[1..])
  }

  predicate MorseChar(c: char) {
    IsSignal(c) || c == '/' || c == ' '
  }

  predicate MorseText(t: string) {
    forall k :: 0 <= k < |t| ==> MorseChar(t[k])
  }

  lemma {:induction false} BodyAlphabet(s: string)
    ensures MorseText(Body(s))
  {
    if s != [] {
      BodyAlphabet(s[1..]);
      var c := s[0];
      if c != ' ' && Code(c).Some? {
        CodeDomain(c);
      }
    }
  }

  /** The body is the concatenation of per-character pieces. */
  lemma {:induction false} BodyAppend(a: string, b: string)
    ensures Body(a + b) == Body(a) + Body(b)
  {
    if a == [] {
      assert a + b == b;
    } else {
      assert (a + b)[1..] == a[1..] + b;
      BodyAppend(a[1..], b);
    }
  }

  /** The message `logInMorseCode` hands to `log`. */
  function Encode(m: string): (r: string)
    ensures MorseText(r)
  {
    var b := Body(ToLower(m));
    BodyAlphabet(ToLower(m));
    var r := Trim(b);
    assert forall c :: c in r ==> MorseChar(c) by {
      forall c | c in r ensures MorseChar(c) {
        assert c in b;
      }
    }
    r
  }

  /** The characters reported on the console as "could not be translated", in order. */
  function Untranslated(m: string): (u: string)
    ensures forall k :: 0 <= k < |u| ==> u[k] != ' ' && Code(u[k]).None?
    ensures forall c :: multiset(u)[c] == if c != ' ' && Code(c).None? then multiset(ToLower(m))[c] else 0
  {
    var s := ToLower(m);
    Reject(s)
  }

  /** The characters the encoder skips: every non-space character without a code. */
  function Reject(s: string): (u: string)
    ensures forall k :: 0 <= k < |u| ==> u[k] != ' ' && Code(u[k]).None?
    ensures forall c :: multiset(u)[c] == if c != ' ' && Code(c).None? then multiset(s)[c] else 0
  {
    if s == [] then []
    else
      assert s == [s[0]] + s[1..];
      if s[0] != ' ' && Code(s[0]).None? then [s[0]] + Reject(s[1..])
      else Reject(s[1..])
  }

  /** The characters the encoder does translate: spaces and table entries. */
  function Keep(s: string): (k: string)
    ensures forall i :: 0 <= i < |k| ==> k[i] == ' ' || Code(k[i]).Some?
    ensures forall c :: multiset(k)[c] == if c == ' ' || Code(c).Some? then multiset(s)[c] else 0
  {
    if s == [] then []
    else
      assert s == [s[0]] + s[1..];
      if s[0] == ' ' || Code(s[0]).Some? then [s[0]] + Keep(s[1..])
      else Keep(s[1..])
  }

  /** Keeping is a filter: it commutes with concatenation, so the kept characters stay in order. */
  lemma {:induction false} KeepAppend(a: string, b: string)
    ensures Keep(a + b) == Keep(a) + Keep(b)
  {
    if a == [] {
      assert a + b == b;
    } else {
      assert (a + b)[1..] == a[1..] + b;
      KeepAppend(a[1..], b);
    }
  }

  /** Rejecting is a filter too, so the report lists the skipped characters in message order. */
  lemma {:induction false} RejectAppend(a: string, b: string)
    ensures Reject(a + b) == Reject(a) + Reject(b)
  {
    if a == [] {
      assert a + b == b;
    } else {
      assert (a + b)[1..] == a[1..] + b;
      RejectAppend(a[1..], b);
    }
  }

  /** Every character of the message is either kept or reported, never both. */
  lemma KeepRejectPartition(s: string)
    ensures multiset(Keep(s)) + multiset(Reject(s)) == multiset(s)
  {
    forall c ensures (multiset(Keep(s)) + multiset(Reject(s)))[c] == multiset(s)[c] {
    }
  }

  // ---------------------------------------------------------------------------
  // Decoding the encoder's output
  // ---------------------------------------------------------------------------

  /** The token the encoder writes for a translatable character. */
  function Token(c: char): string
    requires c == ' ' || Code(c).Some?
  {
    if c == ' ' then "/" else Code(c).value
  }

  function Tokens(s: string): (ts: seq<string>)
    requires forall i :: 0 <= i < |s| ==> s[i] == ' ' || Code(s[i]).Some?
    ensures |ts| == |s|
    ensures PlainWords(ts)
    ensures forall i :: 0 <= i < |s| ==> ts[i] == Token(s[i])
  {
    if s == [] then []
    else
      CodeDomain(s[0]);
      [Token(s[0])] + Tokens(s[1..])
  }

  function DecodeToken(t: string): string {
    if t == "/" then " "
    else match Decode(t)
      case Some(c) => [c]
      case None => []
  }

  /** Reads a Morse text back: one character per space-separated token. */
  function DecodeMessage(t: string): string {
    DecodeAll(Split(t))
  }

  function DecodeAll(ts: seq<string>): string {
    if ts == [] then [] else DecodeToken(ts[0]) + DecodeAll(ts[1..])
  }

  lemma {:induction false} BodyOfKept(s: string)
    requires forall i :: 0 <= i < |s| ==> s[i] == ' ' || Code(s[i]).Some?
    ensures Body(s) == JoinSpaced(Tokens(s))
  {
    if s != [] {
      BodyOfKept(s[1..]);
    }
  }

  lemma {:induction false} BodyKeep(s: string)
    ensures Body(s) == Body(Keep(s))
  {
    if s != [] {
      BodyKeep(s[1..]);
    }
  }

  lemma {:induction false} DecodeTokens(s: string)
    requires forall i :: 0 <= i < |s| ==> s[i] == ' ' || Code(s[i]).Some?
    ensures DecodeAll(Tokens(s)) == s
  {
    if s != [] {
      DecodeTokens(s[1..]);
      if s[0] != ' ' {
        DecodeCode(s[0]);
        CodeDomain(s[0]);
      }
    }
  }

  /**
   * Decoding the encoder's output gives back the lowercased message with the
   * untranslatable characters removed: nothing else is lost or reordered.
   */
  lemma EncodeDecode(m: string)
    ensures DecodeMessage(Encode(m)) == Keep(ToLower(m))
  {
    var s := Keep(ToLower(m));
    var ts := Tokens(s);
    BodyKeep(ToLower(m));
    BodyOfKept(s);
    if s != [] {
      TokensTrimSafe(s);
      TrimJoinSpaced(ts);
      SplitJoin(ts);
      DecodeTokens(s);
    }
  }

  /** Tokens never start or end with a character `trim()` strips. */
  lemma TokensTrimSafe(s: string)
    requires |s| > 0 && forall i :: 0 <= i < |s| ==> s[i] == ' ' || Code(s[i]).Some?
    ensures TrimSafe(Tokens(s))
  {
    var ts := Tokens(s);
    TokenEnds(s[0]);
    TokenEnds(s[|s| - 1]);
    assert ts[0] == Token(s[0]);
    assert ts[|ts| - 1] == Token(s[|s| - 1]);
  }

  lemma TokenEnds(c: char)
    requires c == ' ' || Code(c).Some?
    ensures var t := Token(c); t != [] && !IsBlank(t[0]) && !IsBlank(t[|t| - 1])
  {
    if c != ' ' {
      CodeDomain(c);
      var w := Code(c).value;
      assert IsSignal(w[0]) && IsSignal(w[|w| - 1]);
    }
  }
}

=== FILE: palindromes.dfy ===
/**
 * Palindromes in the logger: the `isPalindrome` test, the filter that keeps
 * the palindromic whitespace-separated words, and the highlighter that wraps
 * every palindromic `\w+` run of a message in a marker/reset pair while
 * leaving everything between the runs untouched.
 */
module Palindromes {
  import opened Text

  /**
   * `isPalindrome`: longer than one character and equal to its own
   * reversal, that is, every character equals its mirror image.
   */
  predicate IsPalindrome(w: string)
    ensures IsPalindrome(w) <==> |w| > 1 && forall i :: 0 <= i < |w| ==> w[i] == w[|w| - 1 - i]
  {
    MirrorReverse(w);
    |w| > 1 && w == Reverse(w)
  }

  /** Equality with the reversal is the mirror condition on positions. */
  lemma MirrorReverse(w: string)
    ensures w == Reverse(w) <==> forall i :: 0 <= i < |w| ==> w[i] == w[|w| - 1 - i]
  {
    if forall i :: 0 <= i < |w| ==> w[i] == w[|w| - 1 - i] {
      assert w == Reverse(w);
    }
  }

  // ---------------------------------------------------------------------------
  // logPalindromeWords
  // ---------------------------------------------------------------------------

  /** The stream filter `filter(word -> isPalindrome(word))`, in encounter order. */
  function KeepPalindromes(ws: seq<string>): (ps: seq<string>)
    ensures forall i :: 0 <= i < |ps| ==> IsPalindrome(ps[i])
    ensures forall w :: multiset(ps)[w] == (if IsPalindrome(w) then multiset(ws)[w] else 0)
  {
    if ws == [] then []
    else
      assert ws == [ws[0]] + ws[1..];
      if IsPalindrome(ws[0]) then [ws[0]] + KeepPalindromes(ws[1..])
      else KeepPalindromes(ws[1..])
  }

  /** The filter commutes with concatenation, so the palindromes keep their encounter order. */
  lemma {:induction false} KeepPalindromesAppend(a: seq<string>, b: seq<string>)
    ensures KeepPalindromes(a + b) == KeepPalindromes(a) + KeepPalindromes(b)
  {
    if a == [] {
      assert a + b == b;
    } else {
      assert (a + b)[1..] == a[1..] + b;
      KeepPalindromesAppend(a[1..], b);
    }
  }

  /**
   * The message `logPalindromeWords` hands to `log`: empty when the message
   * has no palindromic word, and otherwise a line that splits back into the
   * palindromic words in order.
   */
  function PalindromeWords(m: string): (r: string)
    ensures KeepPalindromes(Split(m)) == [] ==> r == []
    ensures KeepPalindromes(Split(m)) != [] ==> Split(r) == KeepPalindromes(Split(m))
  {
    var ps := KeepPalindromes(Split(m));
    PalindromesPlain(Split(m));
    if ps != [] then
      SplitJoin(ps);
      Join(" ", ps)
    else Join(" ", ps)
  }

  /** Palindromes taken from split tokens are non-empty and whitespace-free. */
  lemma PalindromesPlain(ws: seq<string>)
    requires forall i :: 0 <= i < |ws| ==> NoSpace(ws[i])
    ensures PlainWords(KeepPalindromes(ws))
  {
    var ps := KeepPalindromes(ws);
    forall i | 0 <= i < |ps| ensures ps[i] != [] && NoSpace(ps[i]) {
      assert ps[i] in multiset(ws);
    }
  }

  /**
   * The logged line lists exactly the palindromic words of the message (as
   * whitespace-split, case-sensitive).
   */
  lemma PalindromeWordsSpec(m: string)
    ensures var ps := KeepPalindromes(Split(m));
            forall w :: w in ps <==> w in Split(m) && IsPalindrome(w)
  {
    var ws := Split(m);
    var ps := KeepPalindromes(ws);
    forall w ensures w in ps <==> w in ws && IsPalindrome(w) {
      assert w in ps <==> multiset(ps)[w] > 0;
      assert w in ws <==> multiset(ws)[w] > 0;
    }
  }

  // ---------------------------------------------------------------------------
  // logAndHighlightPalindromes
  // ---------------------------------------------------------------------------

  /**
   * Deletes every character outside [a-zA-Z]: each letter stays, as often
   * as it occurs, and nothing else does.
   */
  function Letters(w: string): (r: string)
    ensures forall k :: 0 <= k < |r| ==> IsLetter(r[k])
    ensures forall c :: multiset(r)[c] == if IsLetter(c) then multiset(w)[c] else 0
  {
    if w == [] then []
    else
      assert w == [w[0]] + w[1..];
      if IsLetter(w[0]) then [w[0]] + Letters(w[1..])
      else Letters(w[1..])
  }

  /** Deleting non-letters distributes over concatenation, so the letters keep their order. */
  lemma {:induction false} LettersAppend(a: string, b: string)
    ensures Letters(a + b) == Letters(a) + Letters(b)
  {
    if a == [] {
      assert a + b == b;
    } else {
      assert (a + b)[1..] == a[1..] + b;
      LettersAppend(a[1..], b);
    }
  }

  /**
   * `word.replaceAll("[^a-zA-Z]", "").toLowerCase()`: one lower-case letter
   * for each letter of the word, and a word of lower-case letters is its
   * own cleaned form.
   */
  function Clean(w: string): (r: string)
    ensures |r| == |Letters(w)|
    ensures forall k :: 0 <= k < |r| ==> IsLower(r[k])
    ensures (forall k :: 0 <= k < |w| ==> IsLower(w[k])) ==> r == w
  {
    CleanFacts(w);
    ToLower(Letters(w))
  }

  lemma CleanFacts(w: string)
    ensures forall k :: 0 <= k < |Letters(w)| ==> IsLower(ToLower(Letters(w))[k])
    ensures (forall k :: 0 <= k < |w| ==> IsLower(w[k])) ==> ToLower(Letters(w)) == w
  {
    var r := ToLower(Letters(w));
    forall k | 0 <= k < |Letters(w)| ensures IsLower(r[k]) {
      assert IsLetter(Letters(w)[k]);
    }
    if forall k :: 0 <= k < |w| ==> IsLower(w[k]) {
      LettersOfLetters(w);
    }
  }

  /** A word of lower-case letters loses nothing to the letter filter. */
  lemma {:induction false} LettersOfLetters(w: string)
    requires forall k :: 0 <= k < |w| ==> IsLower(w[k])
    ensures Letters(w) == w
  {
    if w != [] {
      LettersOfLetters(w[1..]);
    }
  }

  /** Cleaning distributes over concatenation. */
  lemma CleanAppend(a: string, b: string)
    ensures Clean(a + b) == Clean(a) + Clean(b)
  {
    LettersAppend(a, b);
  }

  /** Length of the first segment: the maximal run of `\w` or of non-`\w` characters. */
  function SegLen(s: string): (n: nat)
    requires s != []
    ensures 0 < n <= |s|
  {
    if IsWordChar(s[0]) then RunLen(s, IsWordChar) else RunLen(s, NotWordChar)
  }

  /**
   * The message cut into maximal runs of `\w` characters (the matches of
   * `\b\w+\b`) and maximal runs of the other characters between them.
   */
  function Segments(s: string): seq<string>
    decreases |s|
  {
    if s == [] then [] else [s[..SegLen(s)]] + Segments(s[SegLen(s)..])
  }

  predicate IsWordRun(w: string) {
    |w| > 0 && forall k :: 0 <= k < |w| ==> IsWordChar(w[k])
  }

  predicate IsGapRun(w: string) {
    |w| > 0 && forall k :: 0 <= k < |w| ==> !IsWordChar(w[k])
  }

  /**
   * Segments cover the message exactly, each is a word run or a gap run,
   * and neighbouring segments are of different kinds, so every word run is
   * a maximal `\w+` match.
   */
  lemma {:induction false} SegmentsSpec(s: string)
    ensures Concat(Segments(s)) == s
    ensures forall i :: 0 <= i < |Segments(s)| ==> IsWordRun(Segments(s)[i]) || IsGapRun(Segments(s)[i])
    ensures forall i :: 0 <= i < |Segments(s)| - 1 ==>
              (IsWordRun(Segments(s)[i]) <==> IsGapRun(Segments(s)[i + 1]))
    ensures s != [] ==> |Segments(s)| > 0 && Segments(s)[0][0] == s[0]
    decreases |s|
  {
    if s != [] {
      SegmentsSpec(s[SegLen(s)..]);
      SegmentStep(s);
    }
  }

  /** Every segment a run of one kind, and neighbouring segments of different kinds. */
  predicate Alternating(segs: seq<string>) {
    && (forall i :: 0 <= i < |segs| ==> IsWordRun(segs[i]) || IsGapRun(segs[i]))
    && (forall i :: 0 <= i < |segs| - 1 ==> (IsWordRun(segs[i]) <==> IsGapRun(segs[i + 1])))
  }

  /** The facts `SegmentsSpec` states about one message. */
  predicate Segmented(s: string) {
    && Concat(Segments(s)) == s
    && Alternating(Segments(s))
    && (s != [] ==> |Segments(s)| > 0 && Segments(s)[0][0] == s[0])
  }

  lemma SegmentStep(s: string)
    requires s != [] && Segmented(s[SegLen(s)..])
    ensures Segmented(s)
  {
    var n := SegLen(s);
    var rest := s[n..];
    var segs := Segments(s);
    assert segs == [s[..n]] + Segments(rest);
    FirstSegment(s);
    if rest != [] {
      assert Segments(rest)[0][0] == s[n];
      RunKind(Segments(rest)[0]);
    }
    AlternatingCons(s[..n], Segments(rest));
    ConcatCons(s[..n], rest, Segments(rest));
    assert s == s[..n] + rest;
  }

  lemma AlternatingCons(t: string, ts: seq<string>)
    requires Alternating(ts) && (IsWordRun(t) || IsGapRun(t))
    requires ts == [] || (IsWordRun(t) <==> IsGapRun(ts[0]))
    ensures Alternating([t] + ts)
  {
    var u := [t] + ts;
    assert forall i :: 0 < i < |u| ==> u[i] == ts[i - 1];
  }

  /** The first segment is a run of one kind, and the next character is of the other kind. */
  lemma FirstSegment(s: string)
    requires s != []
    ensures IsWordRun(s[..SegLen(s)]) || IsGapRun(s[..SegLen(s)])
    ensures SegLen(s) < |s| ==> (IsWordRun(s[..SegLen(s)]) <==> !IsWordChar(s[SegLen(s)]))
  {
    var n := SegLen(s);
    if IsWordChar(s[0]) {
      assert !IsGapRun(s[..n]) by { assert s[..n][0] == s[0]; }
    } else {
      assert !IsWordRun(s[..n]) by { assert s[..n][0] == s[0]; }
    }
  }

  /** A run's kind is the kind of its first character. */
  lemma RunKind(w: string)
    requires IsWordRun(w) || IsGapRun(w)
    ensures IsWordRun(w) <==> IsWordChar(w[0])
    ensures IsGapRun(w) <==> !IsWordChar(w[0])
  {
  }

  /** A piece of the highlighted message: plain text, or a palindromic run to wrap. */
  datatype Span = Plain(text: string) | Marked(text: string)

  /** The decision the loop takes for one segment. */
  function Mark(seg: string): Span {
    if IsWordRun(seg) && IsPalindrome(Clean(seg)) then Marked(seg) else Plain(seg)
  }

  function MarkAll(segs: seq<string>): (spans: seq<Span>)
    ensures |spans| == |segs|
    ensures forall i :: 0 <= i < |segs| ==> spans[i] == Mark(segs[i])
  {
    if segs == [] then [] else [Mark(segs[0])] + MarkAll(segs[1..])
  }

  /** The spans of a message, one per segment. */
  function Spans(m: string): seq<Span> {
    MarkAll(Segments(m))
  }

  function RenderSpan(sp: Span, marker: string, reset: string): string {
    match sp
    case Plain(t) => t
    case Marked(t) => marker + t + reset
  }

  /** The text the spans print as. */
  function Render(spans: seq<Span>, marker: string, reset: string): string {
    if spans == [] then [] else RenderSpan(spans[0], marker, reset) + Render(spans[1..], marker, reset)
  }

  /** The spans with every inserted marker/reset pair deleted. */
  function Erase(spans: seq<Span>): string {
    if spans == [] then [] else spans[0].text + Erase(spans[1..])
  }

  lemma {:induction false} EraseMarkAll(segs: seq<string>)
    ensures Erase(MarkAll(segs)) == Concat(segs)
  {
    if segs != [] {
      EraseMarkAll(segs[1..]);
    }
  }

  /** Deleting every inserted marker/reset pair gives back exactly the message. */
  lemma HighlightErases(m: string)
    ensures Erase(Spans(m)) == m
  {
    EraseMarkAll(Segments(m));
    SegmentsSpec(m);
  }

  /**
   * Span `i` carries segment `i` of the message, and it is wrapped exactly
   * when that segment is a `\w+` run whose letters, lower-cased, form a
   * palindrome.
   */
  lemma HighlightWraps(m: string)
    ensures |Spans(m)| == |Segments(m)|
    ensures forall i :: 0 <= i < |Spans(m)| ==>
              Spans(m)[i].text == Segments(m)[i] &&
              (Spans(m)[i].Marked? <==> IsWordRun(Segments(m)[i]) && IsPalindrome(Clean(Segments(m)[i])))
  {
  }

  lemma {:induction false} RenderUnmarked(spans: seq<Span>, marker: string, reset: string)
    requires forall i :: 0 <= i < |spans| ==> spans[i].Plain?
    ensures Render(spans, marker, reset) == Erase(spans)
  {
    if spans != [] {
      RenderUnmarked(spans[1..], marker, reset);
    }
  }

  /** With no palindromic `\w+` run, the highlighted message is the message itself. */
  lemma HighlightNothing(m: string, marker: string, reset: string)
    requires forall i :: 0 <= i < |Segments(m)| ==>
               !(IsWordRun(Segments(m)[i]) && IsPalindrome(Clean(Segments(m)[i])))
    ensures Render(Spans(m), marker, reset) == m
  {
    HighlightWraps(m);
    RenderUnmarked(Spans(m), marker, reset);
    HighlightErases(m);
  }

  lemma SpansCons(s: string)
    requires s != []
    ensures Spans(s) == [Mark(s[..SegLen(s)])] + Spans(s[SegLen(s)..])
  {
  }

  lemma RenderCons(sp: Span, rest: seq<Span>, marker: string, reset: string)
    ensures Render([sp] + rest, marker, reset) == RenderSpan(sp, marker, reset) + Render(rest, marker, reset)
  {
    assert ([sp] + rest)[1..] == rest;
  }

  /** A gap run at the front prints as itself, then the rest. */
  lemma GapRunStep(s: string, marker: string, reset: string)
    requires s != [] && !IsWordChar(s[0])
    ensures Render(Spans(s), marker, reset) == s[..SegLen(s)] + Render(Spans(s[SegLen(s)..]), marker, reset)
  {
    var n := SegLen(s);
    SpansCons(s);
    assert !IsWordRun(s[..n]) by {
      assert s[..n][0] == s[0];
    }
    RenderCons(Plain(s[..n]), Spans(s[n..]), marker, reset);
  }

  lemma GapTail(s: string)
    requires s != [] && !IsWordChar(s[0]) && SegLen(s) > 1
    ensures SegLen(s[1..]) == SegLen(s) - 1
  {
    RunLenUnique(s[1..], NotWordChar, SegLen(s) - 1);
  }

  /** Proof step only: the slicing facts `GapStep` needs, kept apart to keep its obligations small. */
  lemma SliceFacts(s: string, n: nat)
    requires 1 <= n <= |s|
    ensures s[1..][n - 1..] == s[n..] && s[..n] == [s[0]] + s[1..][..n - 1]
  {
  }

  /** Proof step only: regrouping a concatenation with one character in front. */
  lemma ConsOnto(c0: char, a: string, b: string, x: string, y: string, z: string)
    requires x == a + z && y == b + z && a == [c0] + b
    ensures x == [c0] + y
  {
  }

  /** A gap character at the front prints as itself, whatever follows it. */
  lemma GapStep(s: string, marker: string, reset: string)
    requires s != [] && !IsWordChar(s[0])
    ensures Render(Spans(s), marker, reset) == [s[0]] + Render(Spans(s[1..]), marker, reset)
  {
    var n := SegLen(s);
    var t := s[1..];
    GapRunStep(s, marker, reset);
    SliceFacts(s, n);
    if n > 1 {
      GapTail(s);
      GapRunStep(t, marker, reset);
      ConsOnto(s[0], s[..n], t[..n - 1], Render(Spans(s), marker, reset),
               Render(Spans(t), marker, reset), Render(Spans(s[n..]), marker, reset));
    }
  }

  /** A maximal `\w` run at the front prints as its span, then the rest. */
  lemma WordStep(s: string, n: nat, marker: string, reset: string)
    requires 0 < n <= |s|
    requires forall k :: 0 <= k < n ==> IsWordChar(s[k])
    requires n == |s| || !IsWordChar(s[n])
    ensures Render(Spans(s), marker, reset) ==
            RenderSpan(Mark(s[..n]), marker, reset) + Render(Spans(s[n..]), marker, reset)
  {
    RunLenUnique(s, IsWordChar, n);
    SpansCons(s);
    RenderCons(Mark(s[..n]), Spans(s[n..]), marker, reset);
  }

  /** One word-run step of the scan, stated on positions of the whole message. */
  lemma WordAdvance(m: string, i: nat, j: nat, marker: string, reset: string)
    requires i < j <= |m|
    requires forall k :: i <= k < j ==> IsWordChar(m[k])
    requires j == |m| || !IsWordChar(m[j])
    ensures Render(Spans(m[i..]), marker, reset) ==
            (if IsPalindrome(Clean(m[i..j])) then marker + m[i..j] + reset else m[i..j])
            + Render(Spans(m[j..]), marker, reset)
  {
    SuffixSlices(m, i, j);
    SuffixRun(m, i, j);
    WordStepAt(m[i..], j - i, m[i..j], m[j..], marker, reset);
    MarkWord(m[i..j], marker, reset);
  }

  lemma SuffixRun(m: string, i: nat, j: nat)
    requires i < j <= |m|
    requires forall k :: i <= k < j ==> IsWordChar(m[k])
    requires j == |m| || !IsWordChar(m[j])
    ensures forall k :: 0 <= k < j - i ==> IsWordChar(m[i..][k])
    ensures j - i == |m[i..]| || !IsWordChar(m[i..][j - i])
  {
  }

  /** `WordStep` with the two slices named. */
  lemma WordStepAt(s: string, n: nat, w: string, rest: string, marker: string, reset: string)
    requires 0 < n <= |s|
    requires forall k :: 0 <= k < n ==> IsWordChar(s[k])
    requires n == |s| || !IsWordChar(s[n])
    requires w == s[..n] && rest == s[n..]
    ensures Render(Spans(s), marker, reset) == RenderSpan(Mark(w), marker, reset) + Render(Spans(rest), marker, reset)
  {
    WordStep(s, n, marker, reset);
  }

  /** A `\w` run is wrapped exactly when its cleaned form is a palindrome. */
  lemma MarkWord(w: string, marker: string, reset: string)
    requires forall k :: 0 <= k < |w| ==> IsWordChar(w[k])
    requires w != []
    ensures RenderSpan(Mark(w), marker, reset) == if IsPalindrome(Clean(w)) then marker + w + reset else w
  {
  }

  lemma SuffixSlices(m: string, i: nat, j: nat)
    requires i <= j <= |m|
    ensures m[i..][..j - i] == m[i..j] && m[i..][j - i..] == m[j..]
  {
  }

  /** One gap-character step of the scan, stated on positions of the whole message. */
  lemma GapAdvance(m: string, i: nat, marker: string, reset: string)
    requires i < |m| && !IsWordChar(m[i])
    ensures Render(Spans(m[i..]), marker, reset) == [m[i]] + Render(Spans(m[i + 1..]), marker, reset)
  {
    assert m[i..][1..] == m[i + 1..];
    GapStep(m[i..], marker, reset);
  }

  /** Proof step only: the message between `last` and `j` is its pieces before and after `i`. */
  lemma SplitAt(m: string, last: nat, i: nat, j: nat)
    requires last <= i <= j <= |m|
    ensures m[last..j] == m[last..i] + m[i..j]
  {
  }

  /** Proof step only: the scan invariant survives copying `piece` into the output. */
  lemma Emitted(r: string, pending: string, piece: string, empty: string, x: string, y: string, total: string)
    requires r + pending + x == total && x == piece + y && empty == []
    ensures r + pending + piece + empty + y == total
  {
  }

  /** Proof step only: the scan invariant survives leaving `piece` pending. */
  lemma Deferred(r: string, pending: string, piece: string, pending2: string, x: string, y: string, total: string)
    requires r + pending + x == total && x == piece + y && pending2 == pending + piece
    ensures r + pending2 + y == total
  {
  }

  /** The end of the `\w+` run that starts at `i`: the matcher's greedy scan. */
  method WordEnd(m: string, i: nat) returns (j: nat)
    requires i < |m| && IsWordChar(m[i])
    ensures i < j <= |m|
    ensures forall k :: i <= k < j ==> IsWordChar(m[k])
    ensures j == |m| || !IsWordChar(m[j])
  {
    j := i + 1;
    while j < |m| && IsWordChar(m[j])
      invariant i < j <= |m|
      invariant forall k :: i <= k < j ==> IsWordChar(m[k])
    {
      j := j + 1;
    }
  }

  /** The text the scan has produced or still holds once it reaches position `i`. */
  ghost predicate ScanInvariant(m: string, marker: string, reset: string, r: string, last: nat, i: nat) {
    last <= i <= |m| && r + m[last..i] + Render(Spans(m[i..]), marker, reset) == Render(Spans(m), marker, reset)
  }

  /** One iteration of the scan at a `\w` character: the whole run, spliced when palindromic. */
  method ScanWord(m: string, marker: string, reset: string, r: string, last: nat, i: nat)
    returns (r': string, last': nat, i': nat)
    requires i < |m| && IsWordChar(m[i]) && ScanInvariant(m, marker, reset, r, last, i)
    ensures i < i' && ScanInvariant(m, marker, reset, r', last', i')
  {
    var j := WordEnd(m, i);
    var word := m[i..j];
    if IsPalindrome(Clean(word)) {
      PalindromeKeeps(m, marker, reset, r, last, i, j);
      r', last', i' := r + m[last..i] + (marker + word + reset), j, j;
    } else {
      WordKeeps(m, marker, reset, r, last, i, j);
      r', last', i' := r, last, j;
    }
  }

  /** Splicing a palindromic run keeps the scan invariant, with nothing left pending. */
  lemma PalindromeKeeps(m: string, marker: string, reset: string, r: string, last: nat, i: nat, j: nat)
    requires i < j <= |m| && ScanInvariant(m, marker, reset, r, last, i)
    requires forall k :: i <= k < j ==> IsWordChar(m[k])
    requires j == |m| || !IsWordChar(m[j])
    requires IsPalindrome(Clean(m[i..j]))
    ensures ScanInvariant(m, marker, reset, r + m[last..i] + (marker + m[i..j] + reset), j, j)
  {
    WordAdvance(m, i, j, marker, reset);
    Emitted(r, m[last..i], marker + m[i..j] + reset, m[j..j], Render(Spans(m[i..]), marker, reset),
            Render(Spans(m[j..]), marker, reset), Render(Spans(m), marker, reset));
  }

  /** Passing over any other run keeps the scan invariant, with the run pending. */
  lemma WordKeeps(m: string, marker: string, reset: string, r: string, last: nat, i: nat, j: nat)
    requires i < j <= |m| && ScanInvariant(m, marker, reset, r, last, i)
    requires forall k :: i <= k < j ==> IsWordChar(m[k])
    requires j == |m| || !IsWordChar(m[j])
    requires !IsPalindrome(Clean(m[i..j]))
    ensures ScanInvariant(m, marker, reset, r, last, j)
  {
    WordAdvance(m, i, j, marker, reset);
    SplitAt(m, last, i, j);
    Deferred(r, m[last..i], m[i..j], m[last..j], Render(Spans(m[i..]), marker, reset),
             Render(Spans(m[j..]), marker, reset), Render(Spans(m), marker, reset));
  }

  lemma GapKeeps(m: string, marker: string, reset: string, r: string, last: nat, i: nat)
    requires i < |m| && !IsWordChar(m[i]) && ScanInvariant(m, marker, reset, r, last, i)
    ensures ScanInvariant(m, marker, reset, r, last, i + 1)
  {
    var x := Render(Spans(m[i..]), marker, reset);
    var y := Render(Spans(m[i + 1..]), marker, reset);
    GapAdvance(m, i, marker, reset);
    SplitOne(m, last, i);
    Deferred(r, m[last..i], [m[i]], m[last..i + 1], x, y, Render(Spans(m), marker, reset));
  }

  /** Proof step only: extending the pending slice by one character. */
  lemma SplitOne(m: string, last: nat, i: nat)
    requires last <= i < |m|
    ensures m[last..i + 1] == m[last..i] + [m[i]]
  {
  }

  /** One iteration of the scan at any other character: it stays pending. */
  method ScanGap(m: string, marker: string, reset: string, r: string, last: nat, i: nat)
    returns (last': nat, i': nat)
    requires i < |m| && !IsWordChar(m[i]) && ScanInvariant(m, marker, reset, r, last, i)
    ensures i' == i + 1 && ScanInvariant(m, marker, reset, r, last', i')
  {
    GapKeeps(m, marker, reset, r, last, i);
    last', i' := last, i + 1;
  }

  /**
   * `logAndHighlightPalindromes`, before logging: scan for each `\w+` run,
   * and when its cleaned form is a palindrome copy the untouched text since
   * the last splice, the marker, the run and the reset code.
   */
  method HighlightPalindromes(m: string, marker: string, reset: string) returns (r: string)
    ensures r == Render(Spans(m), marker, reset)
  {
    r := [];
    var last: nat := 0;
    var i: nat := 0;
    assert m[0..0] == [] && m[0..] == m;
    while i < |m|
      invariant ScanInvariant(m, marker, reset, r, last, i)
      decreases |m| - i
    {
      if IsWordChar(m[i]) {
        r, last, i := ScanWord(m, marker, reset, r, last, i);
      } else {
        last, i := ScanGap(m, marker, reset, r, last, i);
      }
    }
    assert m[last..] == m[last..i] && m[i..] == [];
    r := r + m[last..];
  }
}

=== FILE: shuffles.dfy ===
/**
 * The loggers that count or reorder the whitespace-separated words of a
 * message: the word-frequency counter, the length-grouped shuffle and the
 * interior-letter scramble.
 *
 * `Collections.shuffle` draws from a random source, so each shuffle is a
 * parameter here: the caller supplies the shuffled group (or the shuffled
 * interior letters), and the precondition says only that it is a
 * permutation of what the logger would shuffle. Every property below
 * therefore holds for every outcome of the random source.
 */
module Shuffles {
  import opened Text

  // ---------------------------------------------------------------------------
  // logWordFrequency
  // ---------------------------------------------------------------------------

  /** The words with `String::toLowerCase` applied, the classifier of `groupingBy`. */
  function Lowered(ws: seq<string>): (ls: seq<string>)
    ensures |ls| == |ws|
    ensures forall i :: 0 <= i < |ws| ==> ls[i] == ToLower(ws[i])
  {
    seq(|ws|, i requires 0 <= i < |ws| => ToLower(ws[i]))
  }

  /**
   * `groupingBy(String::toLowerCase, counting())`: the keys are exactly the
   * lower-cased words, and each counts the words that lower-case to it.
   */
  function Tally(ws: seq<string>): (t: map<string, nat>)
    ensures forall k :: k in t <==> k in multiset(Lowered(ws))
    ensures forall k :: k in t ==> t[k] == multiset(Lowered(ws))[k]
  {
    if ws == [] then map[]
    else
      var n := |ws| - 1;
      var t0 := Tally(ws[..n]);
      var k := ToLower(ws[n]);
      assert Lowered(ws) == Lowered(ws[..n]) + [k];
      t0[k := if k in t0 then t0[k] + 1 else 1]
  }

  /**
   * The frequency map `logWordFrequency` builds: its keys are the
   * lower-cased forms of the message's words, and nothing else.
   */
  function WordFrequency(m: string): (t: map<string, nat>)
    ensures forall k :: k in t <==> exists i :: 0 <= i < |Split(m)| && ToLower(Split(m)[i]) == k
    ensures forall k :: k in t ==> ToLower(k) == k
  {
    TallyKeys(Split(m));
    Tally(Split(m))
  }

  lemma TallyKeys(ws: seq<string>)
    ensures forall k :: k in Tally(ws) <==> exists i :: 0 <= i < |ws| && ToLower(ws[i]) == k
    ensures forall k :: k in Tally(ws) ==> ToLower(k) == k
  {
    var ls := Lowered(ws);
    forall k ensures k in Tally(ws) <==> exists i :: 0 <= i < |ws| && ToLower(ws[i]) == k {
      assert k in multiset(ls) <==> k in ls;
      if k in ls {
        var i :| 0 <= i < |ls| && ls[i] == k;
        assert ToLower(ws[i]) == k;
      }
    }
    forall k | k in Tally(ws) ensures ToLower(k) == k {
      var i :| 0 <= i < |ws| && ToLower(ws[i]) == k;
      ToLowerIdempotent(ws[i]);
    }
  }

  lemma ToLowerIdempotent(w: string)
    ensures ToLower(ToLower(w)) == ToLower(w)
  {
  }

  /** Counting is case-blind: lower-casing the words first changes nothing. */
  lemma TallyIgnoresCase(ws: seq<string>)
    ensures Tally(Lowered(ws)) == Tally(ws)
  {
    forall i | 0 <= i < |ws| {
      ToLowerIdempotent(ws[i]);
    }
    assert Lowered(Lowered(ws)) == Lowered(ws);
  }

  lemma SplitExample()
    ensures Split("hello world Hello") == ["hello", "world", "Hello"]
  {
    var ws := ["hello", "world", "Hello"];
    assert PlainWords(ws) by {
      forall i | 0 <= i < |ws| ensures ws[i] != [] && NoSpace(ws[i]) {
      }
    }
    assert Join(" ", ws) == "hello world Hello";
    SplitJoin(ws);
  }

  lemma LoweredExample()
    ensures Lowered(["hello", "world", "Hello"]) == ["hello", "world", "hello"]
  {
    assert ToLower("Hello") == "hello";
    assert ToLower("hello") == "hello";
    assert ToLower("world") == "world";
  }

  /** Words lower-casing to x, y, x tally as two of x and one of y. */
  lemma TallyTwoOne(ws: seq<string>, x: string, y: string)
    requires Lowered(ws) == [x, y, x] && x != y
    ensures Tally(ws) == map[x := 2, y := 1]
  {
    MultisetTwoOne(Lowered(ws), x, y);
    MapOfTwo(Tally(ws), x, y, 2, 1);
  }

  lemma MultisetTwoOne(ls: seq<string>, x: string, y: string)
    requires ls == [x, y, x] && x != y
    ensures multiset(ls)[x] == 2 && multiset(ls)[y] == 1
    ensures forall k :: k in multiset(ls) <==> k == x || k == y
  {
    assert ls == [x] + [y] + [x];
  }

  lemma MapOfTwo(t: map<string, nat>, x: string, y: string, a: nat, b: nat)
    requires forall k :: k in t <==> k == x || k == y
    requires t[x] == a && t[y] == b && x != y
    ensures t == map[x := a, y := b]
  {
    assert t.Keys == {x, y};
  }

  /** "hello world Hello" counts two of "hello" and one of "world". */
  lemma WordFrequencyExample()
    ensures WordFrequency("hello world Hello") == map["hello" := 2, "world" := 1]
  {
    SplitExample();
    LoweredExample();
    TallyTwoOne(Split("hello world Hello"), "hello", "world");
  }

  /** An empty message splits into one empty word, so it counts one "". */
  lemma WordFrequencyEmpty()
    ensures WordFrequency("") == map["" := 1]
  {
    assert Lowered([""]) == [""];
    assert multiset([""]) == multiset{""};
  }

  /** `Long.toString` of a count. */
  function Decimal(n: nat): (s: string)
    ensures |s| > 0
    ensures forall k :: 0 <= k < |s| ==> IsDigit(s[k])
    ensures |s| > 1 ==> s[0] != '0'
  {
    if n < 10 then [('0' as int + n) as char]
    else Decimal(n / 10) + [('0' as int + n % 10) as char]
  }

  /** The number a string of digits denotes. */
  function Value(s: string): nat
    requires forall k :: 0 <= k < |s| ==> IsDigit(s[k])
  {
    if s == [] then 0
    else
      var d := s[|s| - 1];
      assert IsDigit(d);
      10 * Value(s[..|s| - 1]) + (d as int - '0' as int)
  }

  /** The count printed in an entry reads back as the count. */
  lemma {:induction false} DecimalValue(n: nat)
    ensures Value(Decimal(n)) == n
  {
    if n >= 10 {
      DecimalValue(n / 10);
      var s := Decimal(n);
      assert s[..|s| - 1] == Decimal(n / 10);
    }
  }

  /** One `key: count` entry of the logged line. */
  function Entry(k: string, n: nat): string {
    k + ": " + Decimal(n)
  }

  /** The keys of `t`, each exactly once, in some order. */
  predicate Enumerates(order: seq<string>, t: map<string, nat>) {
    && (forall i, j :: 0 <= i < j < |order| ==> order[i] != order[j])
    && (forall k :: k in t ==> k in order)
    && (forall i :: 0 <= i < |order| ==> order[i] in t)
  }

  /**
   * The line `logWordFrequency` logs: the entries joined by ", " in the
   * map's iteration order, which `order` stands for.
   */
  function FrequencyLine(t: map<string, nat>, order: seq<string>): (line: string)
    requires Enumerates(order, t)
    ensures order == [] <==> line == []
  {
    var entries := seq(|order|, i requires 0 <= i < |order| => Entry(order[i], t[order[i]]));
    JoinNonEmpty(", ", entries);
    Join(", ", entries)
  }

  lemma {:induction false} JoinNonEmpty(sep: string, ws: seq<string>)
    requires forall i :: 0 <= i < |ws| ==> ws[i] != []
    ensures ws == [] <==> Join(sep, ws) == []
  {
    if |ws| > 1 {
      JoinNonEmpty(sep, ws[1..]);
    }
  }

  /** An enumeration lists as many keys as the map holds. */
  lemma {:induction false} EnumeratesSize(order: seq<string>, t: map<string, nat>)
    requires Enumerates(order, t)
    ensures |order| == |t|
  {
    var ks := set k | k in order;
    assert ks == t.Keys;
    DistinctCard(order);
  }

  lemma {:induction false} DistinctCard(order: seq<string>)
    requires forall i, j :: 0 <= i < j < |order| ==> order[i] != order[j]
    ensures |set k | k in order| == |order|
  {
    if order != [] {
      var n := |order| - 1;
      var init := order[..n];
      DistinctCard(init);
      var a := set k | k in init;
      var b := set k | k in order;
      assert b == a + {order[n]};
      assert order[n] !in a;
    }
  }

  // ---------------------------------------------------------------------------
  // logWithLengthScrambledWords
  // ---------------------------------------------------------------------------

  /** The words of length in [lo, hi), in order. */
  function Band(ws: seq<string>, lo: nat, hi: nat): (b: seq<string>)
    ensures forall i :: 0 <= i < |b| ==> lo <= |b[i]| < hi
    ensures forall w :: multiset(b)[w] == if lo <= |w| < hi then multiset(ws)[w] else 0
  {
    if ws == [] then []
    else
      assert ws == [ws[0]] + ws[1..];
      if lo <= |ws[0]| < hi then [ws[0]] + Band(ws[1..], lo, hi) else Band(ws[1..], lo, hi)
  }

  /** Selecting a band commutes with concatenation, so the selected words keep their order. */
  lemma {:induction false} BandAppend(a: seq<string>, b: seq<string>, lo: nat, hi: nat)
    ensures Band(a + b, lo, hi) == Band(a, lo, hi) + Band(b, lo, hi)
  {
    if a == [] {
      assert a + b == b;
    } else {
      assert (a + b)[1..] == a[1..] + b;
      BandAppend(a[1..], b, lo, hi);
    }
  }

  /** The list `computeIfAbsent(len, ...)` collects for one length. */
  function Group(ws: seq<string>, len: nat): seq<string> {
    Band(ws, len, len + 1)
  }

  function MaxLen(ws: seq<string>): (n: nat)
    ensures forall i :: 0 <= i < |ws| ==> |ws[i]| <= n
  {
    if ws == [] then 0
    else
      var n := MaxLen(ws[1..]);
      if |ws[0]| > n then |ws[0]| else n
  }

  /** The non-empty groups for lengths lo, lo + 1, ..., hi - 1. */
  function GroupsFrom(ws: seq<string>, lo: nat, hi: nat): seq<seq<string>>
    decreases hi - lo
  {
    if lo >= hi then []
    else if Group(ws, lo) == [] then GroupsFrom(ws, lo + 1, hi)
    else [Group(ws, lo)] + GroupsFrom(ws, lo + 1, hi)
  }

  /** `lengthGroups.values()` of the TreeMap: one list per length, shortest first. */
  function Groups(ws: seq<string>): seq<seq<string>> {
    GroupsFrom(ws, 0, MaxLen(ws) + 1)
  }

  function Flatten(gs: seq<seq<string>>): seq<string> {
    if gs == [] then [] else gs[0] + Flatten(gs[1..])
  }

  /** Every word of `g` has `len` letters. */
  predicate OfLength(g: seq<string>, len: nat) {
    forall i :: 0 <= i < |g| ==> |g[i]| == len
  }

  /**
   * Groups that are non-empty, hold words of one length each, and come in
   * strictly increasing order of that length, every length at least `lo`.
   */
  predicate Ascending(gs: seq<seq<string>>, lo: nat) {
    gs == [] ||
    (gs[0] != [] && lo <= |gs[0][0]| && OfLength(gs[0], |gs[0][0]|) && Ascending(gs[1..], |gs[0][0]| + 1))
  }

  predicate SortedByLength(ws: seq<string>) {
    forall i, j :: 0 <= i <= j < |ws| ==> |ws[i]| <= |ws[j]|
  }

  /** The layering read group by group: one length per group, lengths strictly increasing. */
  lemma {:induction false} AscendingLayers(gs: seq<seq<string>>, lo: nat)
    requires Ascending(gs, lo)
    ensures forall g :: 0 <= g < |gs| ==> gs[g] != [] && lo <= |gs[g][0]| && OfLength(gs[g], |gs[g][0]|)
    ensures forall g1, g2 :: 0 <= g1 < g2 < |gs| ==> |gs[g1][0]| < |gs[g2][0]|
  {
    if gs != [] {
      var rest := gs[1..];
      AscendingLayers(rest, |gs[0][0]| + 1);
      assert forall g :: 0 < g < |gs| ==> gs[g] == rest[g - 1];
    }
  }

  lemma AscendingWeaken(gs: seq<seq<string>>, lo: nat)
    requires Ascending(gs, lo + 1)
    ensures Ascending(gs, lo)
  {
  }

  lemma GroupOneLength(ws: seq<string>, len: nat)
    ensures OfLength(Group(ws, len), len)
  {
  }

  lemma GroupsFromStep(ws: seq<string>, lo: nat, hi: nat)
    requires lo < hi && Ascending(GroupsFrom(ws, lo + 1, hi), lo + 1)
    ensures Ascending(GroupsFrom(ws, lo, hi), lo)
  {
    var g := Group(ws, lo);
    var rest := GroupsFrom(ws, lo + 1, hi);
    if g != [] {
      GroupOneLength(ws, lo);
      var gs := GroupsFrom(ws, lo, hi);
      assert gs == [g] + rest;
      assert gs[0] == g && gs[1..] == rest;
    } else {
      AscendingWeaken(rest, lo);
    }
  }

  lemma {:induction false} GroupsFromLayered(ws: seq<string>, lo: nat, hi: nat)
    ensures Ascending(GroupsFrom(ws, lo, hi), lo)
    decreases hi - lo
  {
    if lo < hi {
      GroupsFromLayered(ws, lo + 1, hi);
      GroupsFromStep(ws, lo, hi);
    }
  }

  lemma FlattenCons(g: seq<string>, rest: seq<seq<string>>)
    ensures multiset(Flatten([g] + rest)) == multiset(g) + multiset(Flatten(rest))
  {
    assert ([g] + rest)[1..] == rest;
  }

  lemma BandEmpty(ws: seq<string>, lo: nat, hi: nat)
    requires lo >= hi
    ensures Band(ws, lo, hi) == []
  {
  }

  /** Peeling the shortest length off a band. */
  lemma BandSplit(ws: seq<string>, lo: nat, hi: nat)
    requires lo < hi
    ensures multiset(Band(ws, lo, hi)) == multiset(Group(ws, lo)) + multiset(Band(ws, lo + 1, hi))
  {
    forall w ensures multiset(Band(ws, lo, hi))[w] == multiset(Group(ws, lo))[w] + multiset(Band(ws, lo + 1, hi))[w] {
    }
  }

  lemma {:induction false} GroupsFromWords(ws: seq<string>, lo: nat, hi: nat)
    ensures multiset(Flatten(GroupsFrom(ws, lo, hi))) == multiset(Band(ws, lo, hi))
    decreases hi - lo
  {
    if lo >= hi {
      BandEmpty(ws, lo, hi);
    } else {
      GroupsFromWords(ws, lo + 1, hi);
      BandSplit(ws, lo, hi);
      var g := Group(ws, lo);
      if g != [] {
        FlattenCons(g, GroupsFrom(ws, lo + 1, hi));
      }
    }
  }

  /** No word is longer than `MaxLen`, so the band up to it holds every word. */
  lemma BandAll(ws: seq<string>)
    ensures multiset(Band(ws, 0, MaxLen(ws) + 1)) == multiset(ws)
  {
    BandUpTo(ws, MaxLen(ws));
  }

  lemma BandUpTo(ws: seq<string>, n: nat)
    requires forall i :: 0 <= i < |ws| ==> |ws[i]| <= n
    ensures multiset(Band(ws, 0, n + 1)) == multiset(ws)
  {
    BandCovers(ws, Band(ws, 0, n + 1), n);
  }

  lemma BandCovers(ws: seq<string>, b: seq<string>, n: nat)
    requires forall i :: 0 <= i < |ws| ==> |ws[i]| <= n
    requires forall w :: multiset(b)[w] == if 0 <= |w| < n + 1 then multiset(ws)[w] else 0
    ensures multiset(b) == multiset(ws)
  {
    forall w | w in multiset(ws) ensures |w| <= n {
      var i :| 0 <= i < |ws| && ws[i] == w;
    }
    assert forall w :: multiset(b)[w] == multiset(ws)[w];
  }

  /** Grouping by length keeps every word and orders the groups shortest first. */
  lemma GroupsSpec(ws: seq<string>)
    ensures Ascending(Groups(ws), 0)
    ensures multiset(Flatten(Groups(ws))) == multiset(ws)
  {
    GroupsFromLayered(ws, 0, MaxLen(ws) + 1);
    GroupsFromWords(ws, 0, MaxLen(ws) + 1);
    BandAll(ws);
  }

  /** Each group replaced by a permutation of itself: one outcome of the shuffles. */
  predicate ShuffledGroups(gs: seq<seq<string>>, sh: seq<seq<string>>) {
    |sh| == |gs| && forall g :: 0 <= g < |gs| ==> multiset(sh[g]) == multiset(gs[g])
  }

  lemma {:induction false} ShuffleKeepsLayers(gs: seq<seq<string>>, sh: seq<seq<string>>, lo: nat)
    requires Ascending(gs, lo) && ShuffledGroups(gs, sh)
    ensures Ascending(sh, lo)
  {
    if gs != [] {
      var len := |gs[0][0]|;
      assert multiset(sh[0]) == multiset(gs[0]);
      assert |sh[0]| == |multiset(sh[0])| == |multiset(gs[0])| == |gs[0]|;
      forall i | 0 <= i < |sh[0]| ensures |sh[0][i]| == len {
        assert sh[0][i] in multiset(gs[0]);
      }
      assert ShuffledGroups(gs[1..], sh[1..]) by {
        forall g | 0 <= g < |gs| - 1 ensures multiset(sh[1..][g]) == multiset(gs[1..][g]) {
          assert sh[1..][g] == sh[g + 1] && gs[1..][g] == gs[g + 1];
        }
      }
      ShuffleKeepsLayers(gs[1..], sh[1..], len + 1);
    }
  }

  lemma {:induction false} FlattenLayered(gs: seq<seq<string>>, lo: nat)
    requires Ascending(gs, lo)
    ensures SortedByLength(Flatten(gs))
    ensures forall i :: 0 <= i < |Flatten(gs)| ==> lo <= |Flatten(gs)[i]|
  {
    if gs != [] {
      var a := gs[0];
      var rest := gs[1..];
      FlattenLayered(rest, |a[0]| + 1);
      var f := Flatten(gs);
      assert f == a + Flatten(rest);
      assert forall i :: 0 <= i < |a| ==> |f[i]| == |a[0]|;
      assert forall i :: |a| <= i < |f| ==> f[i] == Flatten(rest)[i - |a|];
    }
  }

  lemma {:induction false} FlattenWords(gs: seq<seq<string>>, sh: seq<seq<string>>)
    requires ShuffledGroups(gs, sh)
    ensures multiset(Flatten(sh)) == multiset(Flatten(gs))
  {
    if gs != [] {
      FlattenWords(gs[1..], sh[1..]);
    }
  }

  /** `String.join(" ", group)` and a space, for every group in turn. */
  function GroupLines(sh: seq<seq<string>>): string {
    if sh == [] then [] else Join(" ", sh[0]) + " " + GroupLines(sh[1..])
  }

  /**
   * The message `logWithLengthScrambledWords` logs, for one outcome of the
   * shuffles: the shuffled words joined by single spaces and trimmed. When
   * the message has words and none of them holds a character `trim()` would
   * strip, splitting the line again gives back the message's words, each
   * kept and none added, in non-decreasing order of length; an empty token
   * that Split put in front of them sorts first and is trimmed away.
   */
  function LengthScrambled(m: string, sh: seq<seq<string>>): (r: string)
    requires ShuffledGroups(Groups(Split(m)), sh)
    ensures r == Emit(Flatten(sh))
    ensures Words(m) != [] && AllSolid(Words(m)) ==>
              && multiset(Split(r)) == multiset(Words(m))
              && SortedByLength(Split(r))
              && (Flatten(sh) == Split(r) || Flatten(sh) == [[]] + Split(r))
  {
    LengthLine(m, sh);
    Trim(GroupLines(sh))
  }

  lemma LengthLine(m: string, sh: seq<seq<string>>)
    requires ShuffledGroups(Groups(Split(m)), sh)
    ensures Trim(GroupLines(sh)) == Emit(Flatten(sh))
    ensures Words(m) != [] && AllSolid(Words(m)) ==>
              && multiset(Split(Emit(Flatten(sh)))) == multiset(Words(m))
              && SortedByLength(Split(Emit(Flatten(sh))))
              && (Flatten(sh) == Split(Emit(Flatten(sh))) || Flatten(sh) == [[]] + Split(Emit(Flatten(sh))))
  {
    GroupsSpec(Split(m));
    ShuffledLayers(Split(m), Groups(Split(m)), sh);
    if Words(m) != [] && AllSolid(Words(m)) {
      SplitWords(m);
      var vs := Flatten(sh);
      var ws := WithoutLead(vs);
      LeadSorted(vs, Words(m));
      EmitWords(ws, vs);
    }
  }

  /** The words with one leading empty word, if there is one, removed. */
  function WithoutLead(vs: seq<string>): (ws: seq<string>)
    ensures vs == ws || vs == [[]] + ws
  {
    if vs != [] && vs[0] == [] then vs[1..] else vs
  }

  /**
   * A length-sorted permutation of solid words, perhaps with one empty word
   * among them, has that empty word in front.
   */
  lemma LeadSorted(vs: seq<string>, ws: seq<string>)
    requires |ws| > 0 && AllSolid(ws) && SortedByLength(vs)
    requires multiset(vs) == multiset(ws) || multiset(vs) == multiset([[]] + ws)
    ensures |WithoutLead(vs)| > 0 && AllSolid(WithoutLead(vs))
    ensures multiset(WithoutLead(vs)) == multiset(ws)
    ensures SortedByLength(WithoutLead(vs))
  {
    SolidNotEmpty(ws);
    var us := WithoutLead(vs);
    if multiset(vs) != multiset(ws) {
      assert [] in multiset(vs);
      SortedFront(vs);
      assert vs == [[]] + us;
      assert multiset(vs) == multiset{[]} + multiset(us);
      assert multiset([[]] + ws) == multiset{[]} + multiset(ws);
      assert multiset(us) == multiset(vs) - multiset{[]} == multiset(ws);
    } else if vs != [] {
      assert vs[0] in multiset(ws);
      assert us == vs;
    }
    SolidPermutation(us, ws);
  }

  lemma SolidNotEmpty(ws: seq<string>)
    requires AllSolid(ws)
    ensures [] !in multiset(ws)
  {
    forall i | 0 <= i < |ws| ensures ws[i] != [] {
      assert Solid(ws[i]);
    }
  }

  /** In a length-sorted sequence holding an empty word, the first word is empty. */
  lemma SortedFront(vs: seq<string>)
    requires SortedByLength(vs) && [] in vs
    ensures vs != [] && vs[0] == []
  {
    var j :| 0 <= j < |vs| && vs[j] == [];
    assert |vs[0]| <= |vs[j]|;
  }

  lemma SolidPermutation(us: seq<string>, ws: seq<string>)
    requires AllSolid(ws) && multiset(us) == multiset(ws)
    ensures |us| == |ws| && AllSolid(us)
  {
    assert |us| == |multiset(us)| == |ws|;
    forall i | 0 <= i < |us| ensures Solid(us[i]) {
      assert us[i] in multiset(ws);
    }
  }

  lemma {:induction false} GroupLinesSpaced(sh: seq<seq<string>>)
    requires forall g :: 0 <= g < |sh| ==> sh[g] != []
    ensures GroupLines(sh) == JoinSpaced(Flatten(sh))
  {
    if sh != [] {
      GroupLinesSpaced(sh[1..]);
      JoinSpacedIsJoin(sh[0]);
      JoinSpacedAppend(sh[0], Flatten(sh[1..]));
    }
  }

  lemma {:induction false} JoinSpacedAppend(a: seq<string>, b: seq<string>)
    ensures JoinSpaced(a + b) == JoinSpaced(a) + JoinSpaced(b)
  {
    if a == [] {
      assert a + b == b;
    } else {
      assert (a + b)[1..] == a[1..] + b;
      JoinSpacedAppend(a[1..], b);
    }
  }

  /**
   * The shuffled words are the message's tokens, each kept and none added,
   * ordered by non-decreasing length.
   */
  lemma LengthScrambledSpec(m: string, sh: seq<seq<string>>)
    requires ShuffledGroups(Groups(Split(m)), sh)
    ensures multiset(Flatten(sh)) == multiset(Split(m))
    ensures SortedByLength(Flatten(sh))
  {
    GroupsSpec(Split(m));
    ShuffledLayers(Split(m), Groups(Split(m)), sh);
  }

  /** What any shuffle of a length grouping of `ws` keeps. */
  lemma ShuffledLayers(ws: seq<string>, gs: seq<seq<string>>, sh: seq<seq<string>>)
    requires Ascending(gs, 0) && multiset(Flatten(gs)) == multiset(ws)
    requires ShuffledGroups(gs, sh)
    ensures multiset(Flatten(sh)) == multiset(ws)
    ensures SortedByLength(Flatten(sh))
    ensures GroupLines(sh) == JoinSpaced(Flatten(sh))
  {
    ShuffleKeepsLayers(gs, sh, 0);
    FlattenLayered(sh, 0);
    FlattenWords(gs, sh);
    AscendingLayers(sh, 0);
    GroupLinesSpaced(sh);
  }

  // ---------------------------------------------------------------------------
  // logWithCharacterScrambledWords
  // ---------------------------------------------------------------------------

  /** The letters strictly between the first and the last. */
  function Interior(w: string): string
    requires |w| >= 2
  {
    w[1..|w| - 1]
  }

  /** `scrambleWord`, with `middle` the shuffled interior letters. */
  function ScrambleWord(w: string, middle: string): (r: string)
    requires |w| > 2 && multiset(middle) == multiset(Interior(w))
    ensures |r| == |w|
    ensures r[0] == w[0] && r[|r| - 1] == w[|w| - 1]
    ensures Interior(r) == middle
    ensures multiset(r) == multiset(w)
  {
    assert |middle| == |multiset(middle)| == |Interior(w)|;
    assert w == [w[0]] + Interior(w) + [w[|w| - 1]];
    [w[0]] + middle + [w[|w| - 1]]
  }

  /** The identity shuffle gives the word back. */
  lemma ScrambleWordIdentity(w: string)
    requires |w| > 2
    ensures ScrambleWord(w, Interior(w)) == w
  {
  }

  /** A three-letter word has one interior letter, so no shuffle can change it. */
  lemma ScrambleThreeLetters(w: string, middle: string)
    requires |w| == 3 && multiset(middle) == multiset(Interior(w))
    ensures ScrambleWord(w, middle) == w
  {
    assert |middle| == |multiset(middle)| == 1;
    assert middle[0] in multiset(Interior(w));
  }

  /** One shuffle outcome per word; words of at most two letters are not shuffled. */
  predicate Middles(ws: seq<string>, middles: seq<string>) {
    |middles| == |ws| &&
    forall i :: 0 <= i < |ws| && |ws[i]| > 2 ==> multiset(middles[i]) == multiset(Interior(ws[i]))
  }

  function ScrambleEach(ws: seq<string>, middles: seq<string>): (rs: seq<string>)
    requires Middles(ws, middles)
    ensures |rs| == |ws|
    ensures forall i :: 0 <= i < |ws| ==>
              rs[i] == if |ws[i]| > 2 then ScrambleWord(ws[i], middles[i]) else ws[i]
  {
    seq(|ws|, i requires 0 <= i < |ws| =>
      if |ws[i]| > 2 then ScrambleWord(ws[i], middles[i]) else ws[i])
  }

  /**
   * `o` is what the scramble may make of `w`: the same length and letters,
   * the same first and last letter, and no change at all to a word of up to
   * three letters.
   */
  predicate KeepsShape(w: string, o: string) {
    && |o| == |w|
    && multiset(o) == multiset(w)
    && (w != [] ==> o[0] == w[0] && o[|o| - 1] == w[|w| - 1])
    && (|w| <= 3 ==> o == w)
  }

  /**
   * The line `logWithCharacterScrambledWords` prints. When the message has
   * words and none of them holds a character `trim()` would strip, splitting
   * the line again gives one word per word of the message, in the same
   * places, each a scramble of the original.
   */
  function CharacterScrambled(m: string, middles: seq<string>): (r: string)
    requires Middles(Split(m), middles)
    ensures Words(m) != [] && AllSolid(Words(m)) ==>
              && |Split(r)| == |Words(m)|
              && forall i :: 0 <= i < |Words(m)| ==> KeepsShape(Words(m)[i], Split(r)[i])
  {
    ScrambledLine(m, middles);
    Emit(ScrambleEach(Split(m), middles))
  }

  lemma ScrambledLine(m: string, middles: seq<string>)
    requires Middles(Split(m), middles)
    ensures Words(m) != [] && AllSolid(Words(m)) ==>
              var out := Split(Emit(ScrambleEach(Split(m), middles)));
              && |out| == |Words(m)|
              && forall i :: 0 <= i < |Words(m)| ==> KeepsShape(Words(m)[i], out[i])
  {
    if Words(m) != [] && AllSolid(Words(m)) {
      SplitWords(m);
      ScrambledWords(Words(m), Split(m), middles);
    }
  }

  /** The scramble of solid words, with or without an empty token in front. */
  lemma ScrambledWords(ws: seq<string>, vs: seq<string>, middles: seq<string>)
    requires |ws| > 0 && AllSolid(ws) && (vs == ws || vs == [[]] + ws)
    requires Middles(vs, middles)
    ensures var out := Split(Emit(ScrambleEach(vs, middles)));
            && |out| == |ws|
            && forall i :: 0 <= i < |ws| ==> KeepsShape(ws[i], out[i])
  {
    var rs := ScrambleEach(vs, middles);
    ScrambleShapes(vs, middles);
    var os := LeadShapes(ws, vs, rs);
    SolidShapes(ws, os);
    EmitWords(os, rs);
  }

  /** Dropping the scramble of a leading empty token leaves the scrambles of the words. */
  lemma LeadShapes(ws: seq<string>, vs: seq<string>, rs: seq<string>) returns (os: seq<string>)
    requires (vs == ws || vs == [[]] + ws) && |rs| == |vs|
    requires forall i :: 0 <= i < |vs| ==> KeepsShape(vs[i], rs[i])
    ensures rs == os || rs == [[]] + os
    ensures |os| == |ws| && forall i :: 0 <= i < |ws| ==> KeepsShape(ws[i], os[i])
  {
    if vs == ws {
      os := rs;
    } else {
      os := rs[1..];
      assert KeepsShape(vs[0], rs[0]);
      assert rs == [rs[0]] + os;
      forall i | 0 <= i < |ws| ensures KeepsShape(ws[i], os[i]) {
        assert vs[i + 1] == ws[i] && KeepsShape(vs[i + 1], rs[i + 1]);
      }
    }
  }

  /** Every word keeps its shape under the scramble. */
  lemma ScrambleShapes(ws: seq<string>, middles: seq<string>)
    requires Middles(ws, middles)
    ensures forall i :: 0 <= i < |ws| ==> KeepsShape(ws[i], ScrambleEach(ws, middles)[i])
  {
    var rs := ScrambleEach(ws, middles);
    forall i | 0 <= i < |ws| ensures KeepsShape(ws[i], rs[i]) {
      if |ws[i]| == 3 {
        ScrambleThreeLetters(ws[i], middles[i]);
      }
    }
  }

  /** Scrambles of solid words are solid. */
  lemma SolidShapes(ws: seq<string>, os: seq<string>)
    requires AllSolid(ws) && |os| == |ws|
    requires forall i :: 0 <= i < |ws| ==> KeepsShape(ws[i], os[i])
    ensures AllSolid(os)
  {
    forall i | 0 <= i < |os| ensures Solid(os[i]) {
      assert Solid(ws[i]) && KeepsShape(ws[i], os[i]);
      forall k | 0 <= k < |os[i]| ensures !IsBlank(os[i][k]) {
        assert os[i][k] in multiset(ws[i]);
      }
    }
  }
}

=== FILE: text.dfy ===
/**
 * ASCII character classes and the handful of java.lang.String / regex
 * primitives that the logger's transforms share: case mapping, reversal,
 * `trim()`, `split("\\s+")`, joining and substring containment.
 *
 * Every classification here is ASCII-only; non-ASCII characters are never
 * letters, digits or whitespace.
 */
module Text {

  /** A lookup that may miss: `Map.get` returning null, or no table entry. */
  datatype Option<+T> = None | Some(value: T)

  // ---------------------------------------------------------------------------
  // Character classes
  // ---------------------------------------------------------------------------

  /** Java regex `\s` (no UNICODE_CHARACTER_CLASS flag): [ \t\n\x0B\f\r]. */
  predicate IsSpace(c: char) {
    c == ' ' || c == '\t' || c == '\n' || c == '\U{B}' || c == '\U{C}' || c == '\r'
  }

  predicate NotSpace(c: char) {
    !IsSpace(c)
  }

  /** Characters that `String.trim()` strips: every code point <= U+0020. */
  predicate IsBlank(c: char) {
    c <= ' '
  }

  predicate IsLower(c: char) {
    'a' <= c <= 'z'
  }

  predicate IsUpper(c: char) {
    'A' <= c <= 'Z'
  }

  predicate IsLetter(c: char) {
    IsLower(c) || IsUpper(c)
  }

  predicate IsDigit(c: char) {
    '0' <= c <= '9'
  }

  /** Java regex `\w`: [a-zA-Z_0-9]. */
  predicate IsWordChar(c: char) {
    IsLetter(c) || IsDigit(c) || c == '_'
  }

  predicate NotWordChar(c: char) {
    !IsWordChar(c)
  }

  function ToLowerChar(c: char): (r: char)
    ensures IsUpper(c) ==> IsLower(r) && r as int == c as int + 32
    ensures !IsUpper(c) ==> r == c
    ensures !IsUpper(r)
  {
    if IsUpper(c) then (c as int + 32) as char else c
  }

  function ToUpperChar(c: char): (r: char)
    ensures IsLower(c) ==> IsUpper(r) && r as int == c as int - 32
    ensures !IsLower(c) ==> r == c
    ensures !IsLower(r)
  {
    if IsLower(c) then (c as int - 32) as char else c
  }

  /** `String.toLowerCase()` on ASCII. */
  function ToLower(s: string): (r: string)
    ensures |r| == |s|
    ensures forall i :: 0 <= i < |s| ==> r[i] == ToLowerChar(s[i])
  {
    seq(|s|, i requires 0 <= i < |s| => ToLowerChar(s[i]))
  }

  /** `String.toUpperCase()` on ASCII. */
  function ToUpper(s: string): (r: string)
    ensures |r| == |s|
    ensures forall i :: 0 <= i < |s| ==> r[i] == ToUpperChar(s[i])
  {
    seq(|s|, i requires 0 <= i < |s| => ToUpperChar(s[i]))
  }

  // ---------------------------------------------------------------------------
  // Reversal
  // ---------------------------------------------------------------------------

  /** `new StringBuilder(s).reverse().toString()` (no surrogate pairs in ASCII). */
  function Reverse(s: string): (r: string)
    ensures |r| == |s|
    ensures forall i :: 0 <= i < |s| ==> r[i] == s[|s| - 1 - i]
  {
    if s == [] then [] else Reverse(s[1..]) + [s[0]]
  }

  lemma ReverseInvolution(s: string)
    ensures Reverse(Reverse(s)) == s
  {
  }

  // ---------------------------------------------------------------------------
  // trim()
  // ---------------------------------------------------------------------------

  function TrimStart(s: string): (r: string)
    ensures |r| <= |s| && r == s[|s| - |r|..]
    ensures forall k :: 0 <= k < |s| - |r| ==> IsBlank(s[k])
    ensures r == [] || !IsBlank(r[0])
  {
    if s != [] && IsBlank(s[0]) then
      var r := TrimStart(s[1..]);
      BlankStep(s, r);
      r
    else s
  }

  /** Proof step only: a blank in front extends the blank prefix `TrimStart` drops. */
  lemma BlankStep(s: string, r: string)
    requires s != [] && IsBlank(s[0])
    requires |r| <= |s| - 1 && r == s[1..][|s| - 1 - |r|..]
    requires forall k :: 0 <= k < |s| - 1 - |r| ==> IsBlank(s[1..][k])
    ensures r == s[|s| - |r|..]
    ensures forall k :: 0 <= k < |s| - |r| ==> IsBlank(s[k])
  {
    forall k | 0 < k < |s| - |r| ensures IsBlank(s[k]) {
      assert s[k] == s[1..][k - 1];
    }
  }

  function TrimEnd(s: string): (r: string)
    ensures |r| <= |s| && r == s[..|r|]
    ensures forall k :: |r| <= k < |s| ==> IsBlank(s[k])
    ensures r == [] || !IsBlank(r[|r| - 1])
  {
    if s != [] && IsBlank(s[|s| - 1]) then TrimEnd(s[..|s| - 1]) else s
  }

  /** `String.trim()`: drops every leading and trailing character <= ' '. */
  function Trim(s: string): (r: string)
    ensures r == [] || (!IsBlank(r[0]) && !IsBlank(r[|r| - 1]))
    ensures forall c :: c in r ==> c in s
    ensures (s == [] || (!IsBlank(s[0]) && !IsBlank(s[|s| - 1]))) ==> r == s
  {
    var t := TrimStart(s);
    var r := TrimEnd(t);
    TrimPasses(s, t, r);
    r
  }

  /** What the two passes of `trim()` together guarantee. */
  lemma TrimPasses(s: string, t: string, r: string)
    requires t == TrimStart(s) && r == TrimEnd(t)
    ensures r == [] || (!IsBlank(r[0]) && !IsBlank(r[|r| - 1]))
    ensures forall c :: c in r ==> c in s
    ensures (s == [] || (!IsBlank(s[0]) && !IsBlank(s[|s| - 1]))) ==> r == s
  {
    SliceChars(s, |s| - |t|, |s|);
    SliceChars(t, 0, |r|);
    if r != [] {
      assert r[0] == t[0];
    }
  }

  /** `trim()` removes exactly the blanks around a core whose ends are not blank. */
  lemma TrimFrame(lead: string, b: string, trail: string)
    requires forall k :: 0 <= k < |lead| ==> IsBlank(lead[k])
    requires forall k :: 0 <= k < |trail| ==> IsBlank(trail[k])
    requires b == [] || (!IsBlank(b[0]) && !IsBlank(b[|b| - 1]))
    ensures Trim(lead + b + trail) == b
  {
    var s := lead + b + trail;
    TrimIs(s);
    if b == [] {
      assert s == lead + trail;
      TrimBlanks(lead, trail);
    } else {
      assert s == lead + (b + trail);
      TrimCoreFrame(lead, b, trail);
    }
  }

  /** Proof step only: the case of `TrimFrame` with a non-empty core. */
  lemma TrimCoreFrame(lead: string, b: string, trail: string)
    requires forall k :: 0 <= k < |lead| ==> IsBlank(lead[k])
    requires forall k :: 0 <= k < |trail| ==> IsBlank(trail[k])
    requires b != [] && !IsBlank(b[0]) && !IsBlank(b[|b| - 1])
    ensures TrimEnd(TrimStart(lead + (b + trail))) == b
  {
    TrimStartFrame(lead, b + trail);
    TrimEndFrame(b, trail);
  }

  lemma TrimBlanks(lead: string, trail: string)
    requires forall k :: 0 <= k < |lead| ==> IsBlank(lead[k])
    requires forall k :: 0 <= k < |trail| ==> IsBlank(trail[k])
    ensures TrimStart(lead + trail) == []
  {
    TrimStartSkip(lead, trail);
    TrimStartBlank(trail);
  }

  /** A string of blanks trims to nothing. */
  lemma {:induction false} TrimStartBlank(x: string)
    requires forall k :: 0 <= k < |x| ==> IsBlank(x[k])
    ensures TrimStart(x) == []
  {
    if x != [] {
      assert IsBlank(x[0]);
      assert TrimStart(x) == TrimStart(x[1..]);
      TrimStartBlank(x[1..]);
    }
  }

  /** Leading blanks make no difference to `TrimStart`. */
  lemma {:induction false} TrimStartSkip(lead: string, rest: string)
    requires forall k :: 0 <= k < |lead| ==> IsBlank(lead[k])
    ensures TrimStart(lead + rest) == TrimStart(rest)
  {
    if lead != [] {
      var x := lead + rest;
      assert x[0] == lead[0] && IsBlank(x[0]);
      assert x[1..] == lead[1..] + rest;
      assert TrimStart(x) == TrimStart(x[1..]);
      TrimStartSkip(lead[1..], rest);
    } else {
      assert lead + rest == rest;
    }
  }

  lemma TrimStartFrame(lead: string, rest: string)
    requires forall k :: 0 <= k < |lead| ==> IsBlank(lead[k])
    requires rest == [] || !IsBlank(rest[0])
    ensures TrimStart(lead + rest) == rest
  {
    TrimStartSkip(lead, rest);
  }

  lemma {:induction false} TrimEndFrame(rest: string, trail: string)
    requires forall k :: 0 <= k < |trail| ==> IsBlank(trail[k])
    requires rest == [] || !IsBlank(rest[|rest| - 1])
    ensures TrimEnd(rest + trail) == rest
  {
    if trail != [] {
      var n := |trail| - 1;
      assert (rest + trail)[..|rest + trail| - 1] == rest + trail[..n];
      TrimEndFrame(rest, trail[..n]);
    } else {
      assert rest + trail == rest;
    }
  }

  /** Every string is its trimmed core with blanks on either side. */
  lemma TrimSplit(s: string) returns (lead: string, trail: string)
    ensures s == lead + Trim(s) + trail
    ensures forall k :: 0 <= k < |lead| ==> IsBlank(lead[k])
    ensures forall k :: 0 <= k < |trail| ==> IsBlank(trail[k])
  {
    var t := TrimStart(s);
    lead := TrimStartSplit(s);
    trail := TrimEndSplit(t);
    TrimPieces(s, lead, t, trail);
  }

  lemma TrimPieces(s: string, lead: string, t: string, trail: string)
    requires t == TrimStart(s) && s == lead + t && t == TrimEnd(t) + trail
    ensures s == lead + Trim(s) + trail
  {
    TrimIs(s);
    Regroup(s, lead, t, TrimEnd(t), trail);
  }

  lemma Regroup(s: string, lead: string, t: string, r: string, trail: string)
    requires s == lead + t && t == r + trail
    ensures s == lead + r + trail
  {
  }

  lemma TrimIs(s: string)
    ensures Trim(s) == TrimEnd(TrimStart(s))
  {
  }

  lemma TrimStartSplit(s: string) returns (lead: string)
    ensures s == lead + TrimStart(s)
    ensures forall k :: 0 <= k < |lead| ==> IsBlank(lead[k])
  {
    var t := TrimStart(s);
    lead := s[..|s| - |t|];
    assert s == lead + s[|s| - |t|..];
    forall k | 0 <= k < |lead| ensures IsBlank(lead[k]) {
      assert lead[k] == s[k];
    }
  }

  lemma TrimEndSplit(t: string) returns (trail: string)
    ensures t == TrimEnd(t) + trail
    ensures forall k :: 0 <= k < |trail| ==> IsBlank(trail[k])
  {
    var r := TrimEnd(t);
    trail := t[|r|..];
    forall k | 0 <= k < |trail| ensures IsBlank(trail[k]) {
      assert trail[k] == t[|r| + k];
    }
  }

  lemma SliceChars(s: string, a: int, b: int)
    requires 0 <= a <= b <= |s|
    ensures forall c :: c in s[a..b] ==> c in s
  {
    forall c | c in s[a..b] ensures c in s {
      var k :| 0 <= k < b - a && s[a..b][k] == c;
      assert s[a + k] == c;
    }
  }

  // ---------------------------------------------------------------------------
  // Concatenation and joining
  // ---------------------------------------------------------------------------

  function Concat(ss: seq<string>): string {
    if ss == [] then [] else ss[0] + Concat(ss[1..])
  }

  lemma ConcatCons(t: string, s: string, ts: seq<string>)
    requires Concat(ts) == s
    ensures Concat([t] + ts) == t + s
  {
    assert ([t] + ts)[1..] == ts;
  }

  /** The first and last characters of a concatenation of non-empty pieces. */
  lemma {:induction false} ConcatEnds(ts: seq<string>)
    requires |ts| > 0 && forall i :: 0 <= i < |ts| ==> ts[i] != []
    ensures |Concat(ts)| > 0 && Concat(ts)[0] == ts[0][0]
    ensures Concat(ts)[|Concat(ts)| - 1] == ts[|ts| - 1][|ts[|ts| - 1]| - 1]
  {
    if |ts| == 1 {
      assert Concat(ts) == ts[0] + Concat([]);
    } else {
      ConcatEnds(ts[1..]);
    }
  }

  lemma {:induction false} ConcatAppend(a: seq<string>, b: seq<string>)
    ensures Concat(a + b) == Concat(a) + Concat(b)
  {
    if a == [] {
      assert a + b == b;
    } else {
      assert (a + b)[1..] == a[1..] + b;
      ConcatAppend(a[1..], b);
    }
  }

  /** The StringBuilder idiom `for (w : ws) sb.append(w).append(" ")`. */
  function JoinSpaced(ws: seq<string>): string {
    if ws == [] then [] else ws[0] + " " + JoinSpaced(ws[1..])
  }

  /** `String.join(sep, ws)` and `Collectors.joining(sep)`. */
  function Join(sep: string, ws: seq<string>): string {
    if ws == [] then []
    else if |ws| == 1 then ws[0]
    else ws[0] + sep + Join(sep, ws[1..])
  }

  /** A word list that `split("\\s+")` can reproduce from its space join. */
  predicate PlainWords(ws: seq<string>) {
    forall i :: 0 <= i < |ws| ==> ws[i] != [] && NoSpace(ws[i])
  }

  /** A word list whose space join survives `trim()` unchanged. */
  predicate TrimSafe(ws: seq<string>) {
    && |ws| > 0
    && ws[0] != [] && !IsBlank(ws[0][0])
    && ws[|ws| - 1] != [] && !IsBlank(ws[|ws| - 1][|ws[|ws| - 1]| - 1])
  }

  lemma {:induction false} JoinSpacedIsJoin(ws: seq<string>)
    requires |ws| > 0
    ensures JoinSpaced(ws) == Join(" ", ws) + " "
  {
    if |ws| > 1 {
      JoinSpacedIsJoin(ws[1..]);
    }
  }

  lemma JoinFirst(ws: seq<string>)
    requires |ws| > 0 && ws[0] != []
    ensures |Join(" ", ws)| > 0 && Join(" ", ws)[0] == ws[0][0]
  {
  }

  lemma {:induction false} JoinLast(ws: seq<string>)
    requires |ws| > 0 && ws[|ws| - 1] != []
    ensures |Join(" ", ws)| > 0
    ensures Join(" ", ws)[|Join(" ", ws)| - 1] == ws[|ws| - 1][|ws[|ws| - 1]| - 1]
  {
    if |ws| > 1 {
      JoinLast(ws[1..]);
    }
  }

  /**
   * The "append word and space, then trim" idiom produces exactly the space
   * join when neither end of the word list carries a trimmable character.
   */
  lemma TrimJoinSpaced(ws: seq<string>)
    requires TrimSafe(ws)
    ensures Trim(JoinSpaced(ws)) == Join(" ", ws)
  {
    JoinSpacedIsJoin(ws);
    JoinFirst(ws);
    JoinLast(ws);
    var j := Join(" ", ws);
    var s := j + " ";
    assert TrimStart(s) == s;
    assert s[..|s| - 1] == j;
    assert TrimEnd(s) == TrimEnd(j);
  }

  // ---------------------------------------------------------------------------
  // Runs and split("\\s+")
  // ---------------------------------------------------------------------------

  predicate NoSpace(w: string) {
    forall k :: 0 <= k < |w| ==> !IsSpace(w[k])
  }

  predicate AllSpace(s: string) {
    forall k :: 0 <= k < |s| ==> IsSpace(s[k])
  }

  /** Length of the longest prefix of `s` whose characters all satisfy `p`. */
  function RunLen(s: string, p: char -> bool): (n: nat)
    ensures n <= |s|
    ensures forall k :: 0 <= k < n ==> p(s[k])
    ensures n == |s| || !p(s[n])
  {
    if s == [] || !p(s[0]) then 0 else 1 + RunLen(s[1..], p)
  }

  /** A prefix run followed by a character outside the class ends exactly there. */
  lemma {:induction false} RunLenAppend(w: string, t: string, p: char -> bool)
    requires forall k :: 0 <= k < |w| ==> p(w[k])
    requires t == [] || !p(t[0])
    ensures RunLen(w + t, p) == |w|
    decreases |w|
  {
    if w == [] {
      assert w + t == t;
    } else {
      assert (w + t)[1..] == w[1..] + t;
      RunLenAppend(w[1..], t, p);
    }
  }

  /** The run length is the only length with the class inside and not right after it. */
  lemma {:induction false} RunLenUnique(s: string, p: char -> bool, n: nat)
    requires n <= |s|
    requires forall k :: 0 <= k < n ==> p(s[k])
    requires n == |s| || !p(s[n])
    ensures RunLen(s, p) == n
  {
    assert s == s[..n] + s[n..];
    RunLenAppend(s[..n], s[n..], p);
  }

  /** The maximal runs of non-whitespace characters, in order. */
  function Words(s: string): (ws: seq<string>)
    ensures PlainWords(ws)
    decreases |s|
  {
    if s == [] then []
    else if IsSpace(s[0]) then Words(s[1..])
    else
      var n := RunLen(s, NotSpace);
      [s[..n]] + Words(s[n..])
  }

  lemma {:induction false} WordsAllSpace(s: string)
    ensures Words(s) == [] <==> AllSpace(s)
    decreases |s|
  {
    if s == [] {
    } else if IsSpace(s[0]) {
      WordsAllSpace(s[1..]);
      assert AllSpace(s) <==> AllSpace(s[1..]) by {
        assert forall k :: 0 < k < |s| ==> s[k] == s[1..][k - 1];
      }
    } else {
      assert !AllSpace(s);
    }
  }

  /**
   * Java's `s.split("\\s+")`. The separators are maximal whitespace runs;
   * a leading empty token appears when the input starts with whitespace;
   * trailing empty tokens are dropped (so an all-whitespace input gives no
   * tokens at all); and `""`, which contains no match, splits to `[""]`.
   */
  function Split(s: string): (ws: seq<string>)
    ensures forall i :: 0 <= i < |ws| ==> NoSpace(ws[i])
    ensures forall i :: 0 < i < |ws| ==> ws[i] != []
  {
    if s == [] then [[]]
    else if IsSpace(s[0]) && Words(s) != [] then [[]] + Words(s)
    else Words(s)
  }

  /** Deletes every whitespace character. */
  function DropSpaces(s: string): (r: string)
    ensures NoSpace(r)
    ensures |r| <= |s|
  {
    if s == [] then []
    else if IsSpace(s[0]) then DropSpaces(s[1..])
    else [s[0]] + DropSpaces(s[1..])
  }

  lemma {:induction false} DropSpacesAppend(a: string, b: string)
    ensures DropSpaces(a + b) == DropSpaces(a) + DropSpaces(b)
  {
    if a == [] {
      assert a + b == b;
    } else {
      assert (a + b)[1..] == a[1..] + b;
      DropSpacesAppend(a[1..], b);
    }
  }

  lemma {:induction false} DropSpacesNoSpace(w: string)
    requires NoSpace(w)
    ensures DropSpaces(w) == w
  {
    if w != [] {
      DropSpacesNoSpace(w[1..]);
    }
  }

  lemma {:induction false} WordsLossless(s: string)
    ensures Concat(Words(s)) == DropSpaces(s)
    decreases |s|
  {
    if s == [] {
    } else if IsSpace(s[0]) {
      WordsLossless(s[1..]);
    } else {
      var n := RunLen(s, NotSpace);
      assert s == s[..n] + s[n..];
      WordsLossless(s[n..]);
      DropSpacesAppend(s[..n], s[n..]);
      DropSpacesNoSpace(s[..n]);
    }
  }

  /** Splitting loses exactly the whitespace: the tokens concatenate to the rest. */
  lemma SplitLossless(s: string)
    ensures Concat(Split(s)) == DropSpaces(s)
  {
    WordsLossless(s);
  }

  /** Split gives nothing back exactly when the message is non-empty whitespace. */
  lemma SplitEmpty(s: string)
    ensures Split(s) == [] <==> s != [] && AllSpace(s)
  {
    WordsAllSpace(s);
  }

  lemma {:induction false} WordsOfJoin(ws: seq<string>)
    requires |ws| > 0 && PlainWords(ws)
    ensures Words(Join(" ", ws)) == ws
  {
    if |ws| > 1 {
      var w := ws[0];
      var t := Join(" ", ws[1..]);
      var s := w + (" " + t);
      assert Join(" ", ws) == s;
      RunLenAppend(w, " " + t, NotSpace);
      assert s[..|w|] == w;
      assert s[|w|..] == " " + t;
      assert (" " + t)[1..] == t;
      WordsOfJoin(ws[1..]);
    } else {
      var w := ws[0];
      RunLenAppend(w, [], NotSpace);
      assert w + [] == w;
    }
  }

  /** Split inverts the single-space join of plain words. */
  lemma SplitJoin(ws: seq<string>)
    requires |ws| > 0 && PlainWords(ws)
    ensures Split(Join(" ", ws)) == ws
  {
    WordsOfJoin(ws);
    JoinFirst(ws);
  }

  /**
   * Split starts with an empty token exactly for `""` and for text that
   * starts with whitespace and is not all whitespace.
   */
  lemma SplitLeading(s: string)
    ensures |Split(s)| > 0 && Split(s)[0] == [] <==> s == [] || (IsSpace(s[0]) && !AllSpace(s))
  {
    WordsAllSpace(s);
  }

  /** Away from `""`, Split is the list of words, after one empty token at most. */
  lemma SplitWords(s: string)
    requires Words(s) != []
    ensures Split(s) == Words(s) || Split(s) == [[]] + Words(s)
  {
  }

  // ---------------------------------------------------------------------------
  // Layouts: words between whitespace gaps
  // ---------------------------------------------------------------------------

  /** The text `gaps[0] + ws[0] + gaps[1] + ... + ws[n-1] + gaps[n]`. */
  function Lay(gaps: seq<string>, ws: seq<string>): string
    requires |gaps| == |ws| + 1
    decreases |ws|
  {
    if ws == [] then gaps[0] else gaps[0] + ws[0] + Lay(gaps[1..], ws[1..])
  }

  /** Whitespace-only gaps, every gap between two words non-empty; the outer gaps may be empty. */
  predicate Gapped(gaps: seq<string>, ws: seq<string>) {
    && |gaps| == |ws| + 1
    && (forall i :: 0 <= i < |gaps| ==> AllSpace(gaps[i]))
    && (forall i :: 0 < i < |ws| ==> gaps[i] != [])
  }

  lemma {:induction false} WordsSkipSpaces(g: string, t: string)
    requires AllSpace(g)
    ensures Words(g + t) == Words(t)
    decreases |g|
  {
    if g == [] {
      assert g + t == t;
    } else {
      assert (g + t)[1..] == g[1..] + t;
      WordsSkipSpaces(g[1..], t);
    }
  }

  lemma WordsOfWord(w: string, t: string)
    requires w != [] && NoSpace(w) && (t == [] || IsSpace(t[0]))
    ensures Words(w + t) == [w] + Words(t)
  {
    RunLenAppend(w, t, NotSpace);
    assert (w + t)[..|w|] == w && (w + t)[|w|..] == t;
  }

  lemma LayStart(gaps: seq<string>, ws: seq<string>)
    requires Gapped(gaps, ws) && (gaps[0] != [] || ws == [])
    ensures Lay(gaps, ws) == [] || IsSpace(Lay(gaps, ws)[0])
  {
    if ws != [] {
      assert Lay(gaps, ws)[0] == gaps[0][0];
    }
  }

  lemma GappedTail(gaps: seq<string>, ws: seq<string>)
    requires Gapped(gaps, ws) && ws != []
    ensures Gapped(gaps[1..], ws[1..])
    ensures ws[1..] == [] || gaps[1..][0] != []
  {
  }

  /** Split reads the words of a layout back: the tokens are the maximal non-whitespace runs. */
  lemma {:induction false} WordsOfLay(gaps: seq<string>, ws: seq<string>)
    requires Gapped(gaps, ws) && PlainWords(ws)
    ensures Words(Lay(gaps, ws)) == ws
    decreases |ws|
  {
    if ws == [] {
      WordsSkipSpaces(gaps[0], []);
      assert gaps[0] + [] == gaps[0];
      assert Words([]) == [];
    } else {
      var rest := Lay(gaps[1..], ws[1..]);
      GappedTail(gaps, ws);
      WordsOfLay(gaps[1..], ws[1..]);
      LayStart(gaps[1..], ws[1..]);
      WordsOfWord(ws[0], rest);
      WordsSkipSpaces(gaps[0], ws[0] + rest);
      assert Lay(gaps, ws) == gaps[0] + (ws[0] + rest);
    }
  }

  lemma LayConsSpace(c: char, gaps: seq<string>, ws: seq<string>)
    requires |gaps| == |ws| + 1
    ensures Lay([[c] + gaps[0]] + gaps[1..], ws) == [c] + Lay(gaps, ws)
  {
    var gaps' := [[c] + gaps[0]] + gaps[1..];
    assert gaps'[1..] == gaps[1..];
  }

  /** Every text is a layout of its words, so Split loses nothing but whitespace. */
  lemma {:induction false} LayOfWords(s: string)
    ensures exists gaps :: Gapped(gaps, Words(s)) && Lay(gaps, Words(s)) == s
    decreases |s|
  {
    if s == [] {
      assert Gapped([[]], Words(s)) && Lay([[]], Words(s)) == s;
    } else if IsSpace(s[0]) {
      LayOfWords(s[1..]);
      var ws := Words(s[1..]);
      var gaps :| Gapped(gaps, ws) && Lay(gaps, ws) == s[1..];
      var gaps' := [[s[0]] + gaps[0]] + gaps[1..];
      LayConsSpace(s[0], gaps, ws);
      assert AllSpace(gaps'[0]);
      assert Gapped(gaps', Words(s)) && Lay(gaps', Words(s)) == s;
    } else {
      var n := RunLen(s, NotSpace);
      var w := s[..n];
      LayOfWords(s[n..]);
      var ws := Words(s[n..]);
      var gaps :| Gapped(gaps, ws) && Lay(gaps, ws) == s[n..];
      assert Words(s) == [w] + ws;
      assert s == w + s[n..];
      LayConsWord(w, gaps, ws);
    }
  }

  /** A word in front of a layout that starts with whitespace or is empty. */
  lemma LayConsWord(w: string, gaps: seq<string>, ws: seq<string>)
    requires w != [] && Gapped(gaps, ws) && PlainWords(ws)
    requires Lay(gaps, ws) == [] || IsSpace(Lay(gaps, ws)[0])
    ensures Gapped([[]] + gaps, [w] + ws)
    ensures Lay([[]] + gaps, [w] + ws) == w + Lay(gaps, ws)
  {
    var gaps' := [[]] + gaps;
    assert gaps'[1..] == gaps;
  }

  /** Splitting a layout gives its words, after a leading `""` exactly when the first gap is not empty. */
  lemma SplitLay(gaps: seq<string>, ws: seq<string>)
    requires Gapped(gaps, ws) && PlainWords(ws) && ws != []
    ensures Split(Lay(gaps, ws)) == if gaps[0] == [] then ws else [[]] + ws
  {
    WordsOfLay(gaps, ws);
    var s := Lay(gaps, ws);
    if gaps[0] == [] {
      assert s[0] == ws[0][0];
    } else {
      assert s[0] == gaps[0][0];
    }
  }

  // ---------------------------------------------------------------------------
  // The "append each word and a space, then trim" output idiom
  // ---------------------------------------------------------------------------

  /** A word with at least one character and no character that `trim()` would strip. */
  predicate Solid(w: string) {
    w != [] && forall k :: 0 <= k < |w| ==> !IsBlank(w[k])
  }

  predicate AllSolid(ws: seq<string>) {
    forall i :: 0 <= i < |ws| ==> Solid(ws[i])
  }

  /** `sb.append(w).append(" ")` for every word, then `sb.toString().trim()`. */
  function Emit(ws: seq<string>): string {
    Trim(JoinSpaced(ws))
  }

  /**
   * For solid words the emitted line is their single-space join, and
   * splitting it on whitespace gives the words back.
   */
  lemma EmitSolid(ws: seq<string>)
    requires |ws| > 0 && AllSolid(ws)
    ensures Emit(ws) == Join(" ", ws)
    ensures Split(Emit(ws)) == ws
  {
    SolidTrimSafe(ws);
    TrimJoinSpaced(ws);
    SolidPlain(ws);
    SplitJoin(ws);
  }

  /** A leading empty word only adds a leading space, which `trim()` removes. */
  lemma EmitLead(ws: seq<string>)
    requires |ws| > 0 && AllSolid(ws)
    ensures Emit([[]] + ws) == Join(" ", ws)
    ensures Split(Emit([[]] + ws)) == ws
  {
    EmitDropsEmptyLead(ws);
    EmitSolid(ws);
  }

  lemma EmitDropsEmptyLead(ws: seq<string>)
    ensures Emit([[]] + ws) == Emit(ws)
  {
    var x := JoinSpaced(ws);
    assert ([[]] + ws)[1..] == ws;
    assert JoinSpaced([[]] + ws) == " " + x;
    TrimLeadingSpace(x);
  }

  lemma TrimLeadingSpace(x: string)
    ensures Trim(" " + x) == Trim(x)
  {
    var s := " " + x;
    assert s[0] == ' ' && s[1..] == x;
    assert TrimStart(s) == TrimStart(x);
    assert Trim(s) == TrimEnd(TrimStart(s));
  }

  /**
   * The emitted line of the words of a message, whether or not Split put an
   * empty token in front of them.
   */
  lemma EmitWords(ws: seq<string>, vs: seq<string>)
    requires |ws| > 0 && AllSolid(ws)
    requires vs == ws || vs == [[]] + ws
    ensures Emit(vs) == Join(" ", ws)
    ensures Split(Emit(vs)) == ws
  {
    if vs == ws {
      EmitSolid(ws);
    } else {
      EmitLead(ws);
    }
  }

  lemma SolidTrimSafe(ws: seq<string>)
    requires |ws| > 0 && AllSolid(ws)
    ensures TrimSafe(ws)
  {
    assert Solid(ws[0]) && Solid(ws[|ws| - 1]);
  }

  lemma SolidPlain(ws: seq<string>)
    requires AllSolid(ws)
    ensures PlainWords(ws)
  {
    forall i | 0 <= i < |ws| ensures ws[i] != [] && NoSpace(ws[i]) {
      assert Solid(ws[i]);
    }
  }

  // ---------------------------------------------------------------------------
  // Substring containment
  // ---------------------------------------------------------------------------

  predicate IsPrefix(p: string, s: string) {
    |p| <= |s| && s[..|p|] == p
  }

  /** `w` occurs in `s` starting at offset `i`. */
  predicate OccursAt(s: string, w: string, i: int) {
    0 <= i <= |s| - |w| && s[i..i + |w|] == w
  }

  /** `s.contains(w)`, searched left to right. */
  predicate Contains(s: string, w: string)
    decreases |s|
  {
    IsPrefix(w, s) || (s != [] && Contains(s[1..], w))
  }

  /** The search finds `w` exactly when `w` occurs at some offset of `s`. */
  lemma {:induction false} ContainsIff(s: string, w: string)
    ensures Contains(s, w) <==> exists i :: OccursAt(s, w, i)
    decreases |s|
  {
    if IsPrefix(w, s) {
      assert OccursAt(s, w, 0);
    } else if s == [] {
    } else {
      ContainsIff(s[1..], w);
      if exists i :: OccursAt(s, w, i) {
        var i :| OccursAt(s, w, i);
        assert i != 0;
        assert OccursAt(s[1..], w, i - 1);
      }
      if Contains(s[1..], w) {
        var i :| OccursAt(s[1..], w, i);
        assert OccursAt(s, w, i + 1);
      }
    }
  }
}
